=== FILE: README.md ===
# lulz-history in Dafny

LulzHistory is a small Flask application. It shows a GitHub repository's
commit history and decorates each commit with a "lulz" picture. The
picture is taken from a repository of the commit author's, named after the
commit's sha. This project models the parts of the application that hold
logic of their own, and proves what they promise:

- **The memoizing decorator `cached`** (`cache.dfy`, module `Cache`).
  - The key comes from one of three sources: a callable, a `str.format` template, or nothing, which raises `ValueError`.
  - The shared store is a class holding a map from key to entry; `CachedFunction.Call` models one call of the decorated function.
  - `CallSpec` is the pure specification that call is proved against.
  - A ghost log of the wrapped function's runs lets "a hit does not call `f`" be stated.
  - The decorator test is replayed call by call.
- **Paginated requests** (`pagination.dfy`, module `Pagination`).
  - `dig_down_request` is a generator; it becomes the class `PageCursor`, whose `Next` method requests one page.
  - `dig_down_merge` drains the cursor, concatenating items and failing on the first page that is not ok.
  - `request_all` is a loop over `github.request`, which raises `HTTPError` for a page that is not ok.
  - A request is an abstract function from URL to page.
  - The number of pages in a chain is bounded by a ghost `bound`, so that every traversal ends (`EndsWithin`).
- **Picture discovery** (`pictures.dfy`, module `Pictures`).
  - The file-name pattern `img_file_re` is modelled by a matcher. It is proved equal to the pattern's language and checked against every name of the test.
  - The sha of a picture is the part of its name before the first dot.
  - `get_repo_pics` and its recursive `scan_subtree` run over a tree of directory listings. They are modelled as a class whose recursive method updates the dictionary `found` in place.
  - That method is proved against a pure reference: the events of a depth-first walk, folded into the dictionary and stopped by the first failed listing.
- **Commit annotation** (`history.dfy`, module `History`).
  - `find_pic` tries the dictionary's keys in an unspecified order.
  - The loop of `lulz_history` writes `pic` and `is_lulz` into each commit of an array.
  - The `owner/repo` split of `goto` is modelled too.
- **Support modules.** `text.dfy` (module `Text`) models Python's `str.split` on one character, with `join` as its inverse. `wrappers.dfy` holds `Option` (Python's `None`) and `Result` (a value, or the exception raised).

In the decorator test, `myfunc` runs for 0, 1, 2, 200 and 3. The call with 200 runs it, it raises, and nothing is stored; the repeated calls with 1 and 2 are hits. `FunctionCacheScenario` proves exactly that list of runs.

The file-name test has a quirk. In `LulzHistory/tests/test_utilities.py`, lines 50-51, a missing comma makes Python concatenate `'_abc123def456.jpg'` and the 48-digit name into one string. The test therefore checks that glued name instead of the two it lists. The model proves that the glued name (`GluedNameRejected`) and each name on its own (`UnderscoreNameRejected`, `LongNameRejected`) are rejected.

## Model

| member | source | states |
|---|---|---|
| Cache.Natural | LulzHistory/utils.py:53 | the text an integer argument renders to in a key template is decimal digits only, at least one, with no leading zero |
| Cache.NaturalValue | LulzHistory/utils.py:53 | the decimal text an integer argument renders to denotes that integer |
| Cache.NaturalInjective | LulzHistory/utils.py:53 | distinct integers render to distinct texts |
| Cache.Substitute | LulzHistory/utils.py:53 | a template field is filled exactly when its positional index or keyword name is among the call's arguments; otherwise formatting raises (IndexError / KeyError) |
| Cache.Format | LulzHistory/utils.py:53 | `key.format(*args, **kwargs)` succeeds exactly when every field of the template resolves, and a failure is the failure of one of its fields |
| Cache.DeriveKey | LulzHistory/utils.py:50-58 | the key is derived exactly when the key is a callable, or a template whose every field resolves; a failure is `ValueError("Unspecified cache key")` for no key, or the error of one unresolved template field |
| Cache.RenderMeaning | LulzHistory/utils.py:53 | the text an argument contributes to a key: a string renders as itself; an integer renders with a leading `-` exactly when it is negative, followed by decimal digits that denote its absolute value |
| Cache.CallSpec | LulzHistory/utils.py:48-68 | one call runs `f` exactly when the key can be derived and the store has no non-None value under it; a raise or a call without a run leaves the store unchanged; any change is the store updated at the derived key with the result and the timeout |
| Cache.NoKeyRaises | LulzHistory/utils.py:54-58 | with no key every call raises `ValueError("Unspecified cache key")`, and neither the store nor `f` is touched |
| Cache.KeyDerivation | LulzHistory/utils.py:50-53 | a callable key is applied to the call's arguments and its result is the key; a template key that formats has every field resolved; a template that fails to format makes the call raise that error and change nothing |
| Cache.OnlyDerivedKeyMatters | LulzHistory/utils.py:60-63 | two stores that agree on the derived key give the same result and the same decision to run `f` |
| Cache.HitSkipsCompute | LulzHistory/utils.py:61-63 | a non-None stored value is returned unchanged, `f` does not run and the store is unchanged |
| Cache.MissStoresResult | LulzHistory/utils.py:65-68 | on a miss, what `f` returns is stored under the key with the configured timeout and is the value returned |
| Cache.RaiseIsNotCached | LulzHistory/utils.py:66-67 | when `f` raises, the exception propagates, the store is unchanged, and the next identical call runs `f` again |
| Cache.SecondCallHits | LulzHistory/utils.py:61-68 | after a call that computed a non-None value, an identical call does not run `f` and returns the same result |
| Cache.NoneIsNeverAHit | LulzHistory/utils.py:61-63 | a None result is stored under the key, yet the next identical call runs `f` again |
| Cache.Store.constructor | LulzHistory/tests/test_utilities.py:13 | a new cache holds no entries |
| Cache.Store.Get | LulzHistory/utils.py:61 | `cache.get` returns the value stored under the key, or None when there is none |
| Cache.Store.Set | LulzHistory/utils.py:67 | `cache.set` stores the value with its timeout under the key and changes no other key |
| Cache.CachedFunction.constructor | LulzHistory/utils.py:46-48 | decorating never fails and runs nothing, even without a key |
| Cache.CachedFunction.Call | LulzHistory/utils.py:48-68 | the decorated call returns what CallSpec specifies, leaves the store as CallSpec specifies, and logs a run of `f` exactly when CallSpec runs it |
| Cache.MyFunc | LulzHistory/tests/test_utilities.py:17-20 | a call that does not bind exactly `arg`, by position or by name, raises `TypeError`; otherwise `myfunc` returns exactly for an integer from 0 to 5, and then returns "Retval #" and that one digit, never None; any other argument raises `ValueError("Invalid argument")` |
| Cache.MyFuncKeyOf | LulzHistory/tests/test_utilities.py:16 | template `'myfunc/{0}'` gives the key "myfunc/" followed by the decimal argument |
| Cache.TestArgumentsRendered | LulzHistory/tests/test_utilities.py:22-29 | the arguments 0, 1, 2, 3 and 200 render as their decimal texts |
| Cache.MyFuncKeys | LulzHistory/tests/test_utilities.py:16-29 | the five arguments the test uses give the five distinct keys myfunc/0, myfunc/1, myfunc/2, myfunc/3 and myfunc/200 |
| Cache.DistinctArgumentsDistinctKeys | LulzHistory/tests/test_utilities.py:16 | any two distinct natural arguments of `myfunc` are cached under distinct keys |
| Cache.WrongArgumentsRaise | LulzHistory/tests/test_utilities.py:17 | `myfunc(1, x=0)` through the decorator raises `TypeError` and stores nothing; `myfunc(1, 2)` raises `TypeError`; the undecorated `myfunc(arg=1)` returns "Retval #1", but through the decorator `myfunc(arg=1)` raises `IndexError` from the key template `{0}` before `myfunc` runs, and stores nothing |
| Cache.MyFuncResults | LulzHistory/tests/test_utilities.py:17-20 | the test's function returns "Retval #n" for 0 to 3 and raises `ValueError("Invalid argument")` for 200 |
| Cache.FunctionCacheSteps | LulzHistory/tests/test_utilities.py:22-29 | each of the seven calls gives its expected result, store and run decision: the repeated calls of 1 and 2 are hits, and 200 runs but stores nothing |
| Cache.FillCache | LulzHistory/tests/test_utilities.py:22-24 | the first three calls, on an empty cache, each run `myfunc`, return "Retval #0", "#1" and "#2", and leave those three entries with timeout 30 |
| Cache.HitThenRaise | LulzHistory/tests/test_utilities.py:25-27 | on the cache the first three calls left, the call with 1 is a hit returning "Retval #1", and the call with 200 runs `myfunc`, raises `ValueError` and leaves the cache as it was |
| Cache.HitThenMiss | LulzHistory/tests/test_utilities.py:28-29 | on that cache, the call with 2 is a hit returning "Retval #2", and the call with 3 runs `myfunc` and returns "Retval #3" |
| Cache.ReuseCache | LulzHistory/tests/test_utilities.py:25-29 | on that cache, the calls with 1, 200, 2 and 3 return "Retval #1", a ValueError, "Retval #2" and "Retval #3"; `myfunc` runs only for 200 and 3 |
| Cache.FunctionCacheScenario | LulzHistory/tests/test_utilities.py:8-29 | calling with 0, 1, 2, 1, 200, 2, 3 returns "Retval #0", #1, #2, #1, a ValueError, #2 and #3, and `myfunc` runs for exactly 0, 1, 2, 200 and 3 |
| Pagination.ChainUrls | LulzHistory/views.py:71-78 | following `next` links from the start URL requests at least one page and no more than the bound |
| Pagination.ChainUrlsIsChain | LulzHistory/views.py:71-78 | the URLs requested start at the given URL; each page's `next` link is the URL requested after it, and the last page has no link |
| Pagination.ChainIsUnique | LulzHistory/views.py:71-78 | any sequence linked this way from the start URL is the requested sequence: exactly the reachable chain, in order |
| Pagination.FlattenAppend | LulzHistory/views.py:87 | extending the results page by page concatenates the pages' items in order |
| Pagination.FlattenLength | LulzHistory/views.py:87 | the number of merged items is the sum of the page sizes |
| Pagination.FirstFailure | LulzHistory/views.py:84 | every page before the computed index is ok, and the page at that index, if there is one, is not |
| Pagination.FirstFailureAt | LulzHistory/views.py:83-86 | a page that is not ok, with only ok pages before it, is where the merge stops |
| Pagination.RequestedCountMeaning | LulzHistory/views.py:83-86 | the merge requests at least one page of a non-empty chain; every requested page but the last is ok, and the last is not ok unless the whole chain was requested and every page is ok |
| Pagination.NoFailure | LulzHistory/views.py:83-86 | with every page ok the merge never stops early |
| Pagination.MergeFailsAt | LulzHistory/views.py:84-86 | when page m is the first that is not ok, the merge raises with page m's status after requesting m + 1 pages |
| Pagination.MergeSucceeds | LulzHistory/views.py:82-88 | when every page is ok, the merge requests every page and returns all their items |
| Pagination.FlattenSnoc | LulzHistory/views.py:87 | merging one more page appends its items after those merged so far |
| Pagination.Merged | LulzHistory/views.py:82-88 | `dig_down_merge` succeeds exactly when every page is ok, and then returns all items in page order; a failure carries the status of a failing page with only ok pages before it |
| Pagination.PageCursor.constructor | LulzHistory/views.py:66-70 | creating the generator requests nothing; it will walk the chain of `next` links from the given URL |
| Pagination.PageCursor.Next | LulzHistory/views.py:71-78 | each resumption requests the current URL and yields that response, then continues with its `next` link or finishes; a finished generator yields nothing; what is requested so far plus what is still to come is always the chain |
| Pagination.PageCursor.RequestedThenPending | LulzHistory/views.py:71-78 | what the generator has requested, followed by what it will still request, is the whole chain; it is finished exactly when nothing is pending |
| Pagination.DigDownMerge | LulzHistory/views.py:81-88 | the result is the concatenation of every page's items in order, or the failure with the status of the first page that is not ok; the pages requested are the chain up to and including that page |
| Pagination.Request | LulzHistory/github.py:65-72 | `github.request` returns the response exactly when it is ok, and otherwise raises `HTTPError` with its status code |
| Pagination.RequestAll | LulzHistory/views.py:91-98 | draining `request_all` yields the items of every page before the first page that is not ok, in order, then raises `HTTPError` with that page's status; if every page is ok it yields all items and raises nothing |
| Pagination.RequestAllAgreesWithMerge | LulzHistory/views.py:81-98 | with the items and the exception `RequestAll` ensures for a chain, `Merged` of the same chain is the success with those items, or the failure with the status `request_all` raises; chained with the `ensures` of `RequestAll` and `DigDownMerge`, both on `ChainPages`, the two callers agree |
| Pagination.ThreePageChain | LulzHistory/views.py:81-88 | a three-page chain merges to its five items in page order; with a failing second page the merge fails with status 500 |
| Text.Split | LulzHistory/views.py:103 | `str.split` never returns an empty list |
| Text.JoinSplit | LulzHistory/views.py:103 | joining the pieces of a split with the separator gives back the string |
| Text.SplitPiecesAreFree | LulzHistory/views.py:103 | no piece of a split contains the separator |
| Text.SplitCount | LulzHistory/views.py:103-104 | a split has one piece more than the string has separators |
| Text.SplitFirstPiece | LulzHistory/views.py:180 | the first piece of a split is the longest prefix without the separator, followed by the separator or the end |
| Text.SplitWithoutSeparator | LulzHistory/views.py:180 | a string without the separator splits into itself alone |
| Text.SplitAfterFreePrefix | LulzHistory/views.py:180 | a separator-free prefix is joined onto the first piece of what follows it |
| Text.SplitJoin | LulzHistory/views.py:103 | splitting the join of separator-free pieces gives back the pieces |
| Pictures.HexRun | LulzHistory/views.py:41 | the leading run of lower-case hex digits is all hex digits, and it stops at the end or at the first other character |
| Pictures.HexRunStopsAt | LulzHistory/views.py:41 | the leading run of digits followed by a non-digit is exactly those digits |
| Pictures.ImgFileMatch | LulzHistory/views.py:41 | a matching name is 14 to 44 characters: lower-case hex digits, then a dot and a three-letter extension |
| Pictures.ImgFileMatchIsPattern | LulzHistory/views.py:41 | the matcher accepts a name exactly when it is 10 to 40 lower-case hex digits, a dot, and jpg, gif or png, with nothing after |
| Pictures.ImgFileAccepts | LulzHistory/views.py:41 | every name of 10 to 40 lower-case hex digits, a dot and one of the three extensions matches |
| Pictures.RejectedAfterRun | LulzHistory/views.py:41 | a digit run that is too short or too long, or is not followed by a dot and an extension, is rejected |
| Pictures.AllHexRejected | LulzHistory/views.py:41 | a name of hex digits alone has no extension and is rejected |
| Pictures.ShortNamesAccepted | LulzHistory/tests/test_utilities.py:35-39 | the three names of 10 digits the test expects to match do match |
| Pictures.LongNamesAccepted | LulzHistory/tests/test_utilities.py:36-40 | the three names of 40 digits the test expects to match do match |
| Pictures.ForeignNamesRejected | LulzHistory/tests/test_utilities.py:42-47 | names with too few digits, other characters or upper-case hex are rejected (lines 43-47 and 52) |
| Pictures.BareDigitsRejected | LulzHistory/tests/test_utilities.py:48 | sixteen digits without an extension are rejected |
| Pictures.SuffixedNameRejected | LulzHistory/tests/test_utilities.py:49 | a name with a suffix after the extension is rejected |
| Pictures.GluedNameRejected | LulzHistory/tests/test_utilities.py:50-51 | the string the test actually checks there, two names run together, is rejected |
| Pictures.UnderscoreNameRejected | LulzHistory/tests/test_utilities.py:50 | a name starting with an underscore is rejected |
| Pictures.LongNameRejected | LulzHistory/tests/test_utilities.py:51 | a name with 48 digits is rejected |
| Pictures.PicSha | LulzHistory/views.py:180 | `name.split('.', 1)[0]` is the longest prefix of the name without a dot, and the dot, if any, follows it |
| Pictures.ShaOfMatch | LulzHistory/views.py:179-180 | the sha of a matching name, its text before the first dot, is its run of 10 to 40 lower-case hex digits |
| Pictures.RawUrl | LulzHistory/views.py:181-187 | a picture's URL starts with `https://raw.github.com/` and ends with the picture's path |
| Pictures.WalkListing | LulzHistory/views.py:172-188 | every picture the scan meets in a directory tree is named after a sha of 10 to 40 lower-case hex digits |
| Pictures.WalkEntries | LulzHistory/views.py:174-188 | every picture met in a listing's entries is named after a sha of 10 to 40 lower-case hex digits |
| Pictures.WalkNode | LulzHistory/views.py:175-188 | every picture met under one entry is named after a sha of 10 to 40 lower-case hex digits |
| Pictures.Apply | LulzHistory/views.py:172-193 | folding the scan's events into `found` completes exactly when no listing request failed, and never removes a key |
| Pictures.WalkEntriesAppend | LulzHistory/views.py:174-176 | scanning a listing meets the entries' pictures in listing order |
| Pictures.ApplyAppend | LulzHistory/views.py:172-188 | scanning two stretches of a tree in turn is scanning the first, then, if it completed, the second from where the first left `found` |
| Pictures.StopsAtAbort | LulzHistory/views.py:189-196 | a failed listing request ends the scan; what was found before it is kept and nothing after it is scanned |
| Pictures.ApplyKeysComeFromPictures | LulzHistory/views.py:179-188 | every key the scan leaves is either an old entry kept as it was, or the sha of a picture the scan met, mapped to that picture's raw URL |
| Pictures.ApplyKeepsUntouchedKey | LulzHistory/views.py:188 | an entry no later picture has the sha of is left as it is |
| Pictures.LastPictureWins | LulzHistory/views.py:188 | of two pictures with the same sha, the one met later is the one recorded |
| Pictures.CompletedScanHasEveryPicture | LulzHistory/views.py:172-188 | a scan that completes records the sha of every picture it met |
| Pictures.DefaultBranch | LulzHistory/views.py:155-157 | the raw URLs of every repository point into branch master: `get_repo_default_branch` returns that literal, and its request for the real default branch is commented out |
| Pictures.PicScanner.constructor | LulzHistory/views.py:169-170 | a scan starts with an empty `found` for the given repository and branch |
| Pictures.PicScanner.ScanSubtree | LulzHistory/views.py:172-188 | the recursive scan updates `found` in place exactly as the depth-first walk of the listing folds into it, and reports failure exactly when an `HTTPError` escapes a request |
| Pictures.GetRepoPics | LulzHistory/views.py:164-196 | returns the pictures recorded by a scan, from an empty dictionary, of the tree that the contents request without a ref lists (the `root` listing), with raw URLs pointing into branch master; a failed request ends the scan and what was found so far is returned |
| Pictures.RepoPicsAreShasToRawUrls | LulzHistory/views.py:163-196 | every key `get_repo_pics` returns is a sha of 10 to 40 lower-case hex digits, mapped to a `https://raw.github.com/{owner}/{repo}/master/{path}` URL |
| Pictures.FailedRootFindsNothing | LulzHistory/views.py:189-196 | when the request for the repository's top directory fails, `get_repo_pics` returns an empty dictionary |
| History.FindPic | LulzHistory/views.py:216-219 | the result is the value of some key that is a prefix of the sha; it is None exactly when no key is a prefix; when only one key is a prefix, its value is the result |
| History.AnnotateCommits | LulzHistory/views.py:221-230 | every commit gets the picture of a key prefixing its sha with `is_lulz` True, or, when no key prefixes it, its author's avatar with `is_lulz` False; nothing else of any commit changes |
| History.AnnotatedMeaning | LulzHistory/views.py:221-230 | an annotated commit keeps its sha and author, always has a picture, and is lulz exactly when a key of its author's pictures prefixes its sha; otherwise its picture is the avatar |
| History.NoPicturesMeansAvatars | LulzHistory/views.py:221-230 | an author whose pictures dictionary is empty (see `Pictures.FailedRootFindsNothing` for a scan whose first request failed) gets the avatar and `is_lulz` False on every commit |
| History.Goto | LulzHistory/views.py:101-106 | `goto` redirects exactly when the argument holds exactly one slash, naming the slash-free texts before and after it; otherwise it answers ("Bad repo name", 400); a missing argument is its own outcome |
| History.GotoOfOwnerAndRepo | LulzHistory/views.py:103-106 | for a slash-free owner and repository, `goto` on `owner/repo` redirects to exactly that pair |

## Left out

- Flask routing, templates, `session`, `redirect` and `url_for`: framework glue. `goto` is modelled up to the owner and repository its redirect names.
- `goto`: a missing `repo` query argument is modelled as an outcome of its own. What the framework answers to it comes from a library that is not shown.
- `add_user_info`, the bodies of `get_commits`, `list_branches` and `repo_index`: HTTP calls and an inline cache check.
- LulzHistory/github.py: modelled only as `Request`, a request that fails with its status code when the response is not ok. Credentials, query-string handling and the error message text are out.
- LulzHistory/auth.py (the OAuth2 exchange), LulzHistory/server.py (command-line options) and setup.py (packaging): not logic of this core.
- The cache library behind the store: expiry, eviction and the default timeout live in a library that is not shown. The store is a map, and each entry records the timeout passed to `set`.
- `cached`'s default `timeout=5 * 60` (utils.py, line 24) is not modelled: the timeout is always a parameter, and every decorated function in the source passes one.
- Pictures.GetRepoPics: the `@cached(5*60, 'repo_pics:{owner}/{repo}')` at views.py, line 163, is not composed with the scan. The decorated function is the `Cache` model applied to it, once the store write of the inner cached `get_repo_default_branch` call is ignored (see `Cache.CallSpec` below): a repeated call for the same owner and repository returns the earlier dictionary without scanning, even a partial or empty one, because a dictionary is never None. `GetRepoPics` models one undecorated scan.
- Cache.CallSpec: the wrapped `f` is a pure function of its arguments. A wrapped function that itself reads or writes the same store is not modelled. `get_repo_pics` (views.py, line 169) calls the `@cached` `get_repo_default_branch` (line 155), so one call on an empty cache stores `repo_master_branch:{owner}/{repo}` as well as `repo_pics:{owner}/{repo}`.
- Cache.MyFunc: the exception kind of a call that does not bind `arg` is `TypeError` as in Python, but the message is approximate: Python's text depends on the call (an unexpected keyword argument, or the count of arguments given).
- Cache.Format: a template is a parsed sequence of literal runs and numbered or named fields. Automatic numbering (`{}`), attribute and index lookups in fields, and format specifications are not modelled.
- Cache.Render: an argument is an integer or a string. How `str.format` renders other values, such as `None` in the `?sha={branch}` key of `get_commits`, is not modelled.
- Cache.CachedFunction.Call: a callable key is a total function. A callable that raises is not modelled.
- Pictures.ImgFileMatch: Python's `$` also matches before one final newline, so `re.match` accepts a valid name followed by a newline, such as `a0b1c2d3e4.jpg\n`. The matcher rejects such a name.
- Pagination.PageCursor: the generator is modelled only for chains of `next` links that reach a page without one within a ghost bound (`EndsWithin`). On an endless chain the Python generator keeps yielding forever.
- Pagination.DigDownMerge: it requires the same bound, so it is not modelled on a chain where a page that is not ok links on into an endless chain. Python's `dig_down_merge` stops at that page and raises with its status without reading the link.
- Pagination.RequestAll: it requires the same bound, so it is not modelled on such a chain either, although `request_all` raises `HTTPError` at the first page that is not ok without reading its link.
- Pagination.PageCursor: the generator's laziness is modelled by its `Next` method. Interleaving with other work between resumptions is not.
- Pictures.PicScanner.ScanSubtree: the request for a directory URL is folded into the tree. Each `dir` entry carries the listing its URL returns, or the status of the `HTTPError` that request raises.
- History.AnnotateCommits: the construction of `all_pics` from the commits' authors (views.py, lines 206-214) is taken as given. Its `requires` demands an entry for every commit's author, which that construction guarantees.
- History.AnnotateCommits: a commit whose `author` is null crashes at views.py, line 222, although line 207 skips such commits. The model's commits always have an author.
- Which of several prefix keys `find_pic` picks depends on dictionary order. `FindPic` chooses arbitrarily among the keys not yet tried, and its contract states only what holds for every order.

=== FILE: cache.dfy ===
/**
 * The memoizing decorator `cached(cache, timeout, key)` of LulzHistory/utils.py.
 *
 * `cached(cache, timeout, key)(f)` builds a decorated function. Each call of it
 * derives a cache key from the call's arguments, asks the shared store for that
 * key, returns a non-`None` hit without running `f`, and otherwise runs `f` and
 * stores what it returned under the key with the configured timeout.
 */
module Cache {
  import opened Wrappers

  /** A Python exception as the caller sees it: its class name and its message. */
  datatype Exception = Exception(kind: string, message: string)

  /** An argument of a decorated function, as far as a key template renders it. */
  datatype Value = Int(i: int) | Str(s: string)

  /** The positional and keyword arguments of one call. */
  datatype Args = Args(positional: seq<Value>, keywords: map<string, Value>)

  /** A literal run or a replacement field (`{0}`, `{owner}`) of a `str.format` template. */
  datatype Field = Literal(text: string) | Positional(index: nat) | Keyword(name: string)

  type Template = seq<Field>

  /** The `key` argument of `cached`: a callable, a format template, or `None`. */
  datatype KeyStrategy = KeyFunction(derive: Args -> string) | KeyTemplate(template: Template) | NoKey

  /** What the wrapped function does: return a value (`Returned(None)` is Python's `None`) or raise. */
  datatype Outcome<V> = Returned(value: Option<V>) | Raised(exc: Exception)

  /** A store entry: the value handed to `cache.set` and the timeout passed with it. */
  datatype Entry<V> = Entry(value: Option<V>, timeout: int)

  /** The error every call raises when the decorator was given no key. */
  const UnspecifiedKey := Exception("ValueError", "Unspecified cache key")

  // ---------------------------------------------------------------------------
  // Key derivation (utils.py, lines 50-58)
  // ---------------------------------------------------------------------------

  /** The character of the decimal digit `d`. */
  function DigitChar(d: nat): char
    requires d < 10
  {
    ('0' as int + d) as char
  }

  /** Python's `str()` of a natural number: decimal digits, no leading zero. */
  function Natural(n: nat): (s: string)
    ensures 1 <= |s|
    ensures forall k :: 0 <= k < |s| ==> '0' <= s[k] <= '9'
    ensures n >= 10 ==> s[0] != '0'
  {
    if n < 10 then [DigitChar(n)] else Natural(n / 10) + [DigitChar(n % 10)]
  }

  /** The number a text of decimal digits denotes, most significant digit first. */
  function DecimalValue(s: string): nat
    requires forall k :: 0 <= k < |s| ==> '0' <= s[k] <= '9'
  {
    if s == [] then 0 else 10 * DecimalValue(s[..|s| - 1]) + (s[|s| - 1] as int - '0' as int)
  }

  /** The text `Natural` renders denotes the number it was given. */
  lemma {:induction false} NaturalValue(n: nat)
    ensures DecimalValue(Natural(n)) == n
  {
    if n >= 10 {
      NaturalValue(n / 10);
      var s := Natural(n);
      assert s[..|s| - 1] == Natural(n / 10);
    } else {
      assert Natural(n)[..0] == [];
    }
  }

  /** Distinct numbers render as distinct texts. */
  lemma NaturalInjective(a: nat, b: nat)
    requires a != b
    ensures Natural(a) != Natural(b)
  {
    NaturalValue(a);
    NaturalValue(b);
  }

  /** Python's `str()` of an argument, the text `str.format` substitutes for it. */
  function Render(v: Value): string {
    match v
    case Int(i) => if i < 0 then "-" + Natural(-i) else Natural(i)
    case Str(s) => s
  }

  /**
   * A string renders as itself; an integer renders as a leading `-` exactly when it is
   * negative, then decimal digits that denote its absolute value.
   */
  lemma RenderMeaning(v: Value)
    ensures v.Str? ==> Render(v) == v.s
    ensures v.Int? ==> 1 <= |Render(v)| && (Render(v)[0] == '-' <==> v.i < 0)
    ensures v.Int? && v.i >= 0 ==>
      (forall k :: 0 <= k < |Render(v)| ==> '0' <= Render(v)[k] <= '9') && DecimalValue(Render(v)) == v.i
    ensures v.Int? && v.i < 0 ==>
      (forall k :: 1 <= k < |Render(v)| ==> '0' <= Render(v)[k] <= '9') && DecimalValue(Render(v)[1..]) == -v.i
  {
    if v.Int? {
      if v.i < 0 {
        NaturalValue(-v.i);
        assert Render(v)[1..] == Natural(-v.i);
      } else {
        NaturalValue(v.i);
      }
    }
  }

  /** Whether a template field can be filled from the arguments. */
  predicate Resolves(field: Field, args: Args) {
    match field
    case Literal(_) => true
    case Positional(i) => i < |args.positional|
    case Keyword(name) => name in args.keywords
  }

  /** One field of `template.format(*args, **kwargs)`; a missing argument raises as Python 2 does. */
  function Substitute(field: Field, args: Args): (r: Result<string, Exception>)
    ensures r.Success? <==> Resolves(field, args)
  {
    match field
    case Literal(text) => Success(text)
    case Positional(i) =>
      if i < |args.positional| then Success(Render(args.positional[i]))
      else Failure(Exception("IndexError", "tuple index out of range"))
    case Keyword(name) =>
      if name in args.keywords then Success(Render(args.keywords[name]))
      else Failure(Exception("KeyError", name))
  }

  /** `template.format(*args, **kwargs)`: fields are filled left to right; the first missing one raises. */
  function Format(template: Template, args: Args): (r: Result<string, Exception>)
    ensures r.Success? <==> forall k :: 0 <= k < |template| ==> Resolves(template[k], args)
    ensures r.Failure? ==> exists k :: 0 <= k < |template| && r == Substitute(template[k], args)
  {
    if template == [] then Success("")
    else
      match Substitute(template[0], args)
      case Failure(e) => Failure(e)
      case Success(piece) =>
        match Format(template[1..], args)
        case Failure(e) =>
          assert forall k :: 1 <= k < |template| ==> template[k] == template[1..][k - 1];
          Failure(e)
        case Success(rest) =>
          assert forall k :: 1 <= k < |template| ==> template[k] == template[1..][k - 1];
          Success(piece + rest)
  }

  /** The cache key of one call: the callable's result, the filled template, or `ValueError`. */
  function DeriveKey(key: KeyStrategy, args: Args): (r: Result<string, Exception>)
    ensures r.Success? <==>
              || key.KeyFunction?
              || (key.KeyTemplate? && forall k :: 0 <= k < |key.template| ==> Resolves(key.template[k], args))
    ensures r.Failure? ==>
              || (key.NoKey? && r.error == UnspecifiedKey)
              || (key.KeyTemplate? && exists k :: 0 <= k < |key.template| && r == Substitute(key.template[k], args))
  {
    match key
    case KeyFunction(derive) => Success(derive(args))
    case KeyTemplate(template) => Format(template, args)
    case NoKey => Failure(UnspecifiedKey)
  }

  // ---------------------------------------------------------------------------
  // One call of the decorated function (utils.py, lines 48-68)
  // ---------------------------------------------------------------------------

  /** `cache.get(key)`: the stored value, or `None` when nothing is stored under the key. */
  function Lookup<V>(entries: map<string, Entry<V>>, k: string): Option<V> {
    if k in entries then entries[k].value else None
  }

  /** What one call produces: the caller's result, the store afterwards, and whether `f` ran. */
  datatype Step<V> = Step(result: Result<Option<V>, Exception>, entries: map<string, Entry<V>>, invoked: bool)

  /** The specification of one call of `cached(store, timeout, key)(f)` with `args`. */
  function CallSpec<V>(entries: map<string, Entry<V>>, key: KeyStrategy, timeout: int,
                       f: Args -> Outcome<V>, args: Args): (s: Step<V>)
    ensures s.invoked <==> DeriveKey(key, args).Success? && Lookup(entries, DeriveKey(key, args).value).None?
    ensures s.result.Failure? || !s.invoked ==> s.entries == entries
    ensures s.entries != entries ==>
              s.entries == entries[DeriveKey(key, args).value := Entry(s.result.value, timeout)]
  {
    match DeriveKey(key, args)
    case Failure(e) => Step(Failure(e), entries, false)
    case Success(k) =>
      var rv := Lookup(entries, k);
      if rv.Some? then Step(Success(rv), entries, false)
      else
        match f(args)
        case Raised(e) => Step(Failure(e), entries, true)
        case Returned(v) => Step(Success(v), entries[k := Entry(v, timeout)], true)
  }

  /** With no key, every call raises `ValueError` and neither the store nor `f` is touched. */
  lemma NoKeyRaises<V>(entries: map<string, Entry<V>>, timeout: int, f: Args -> Outcome<V>, args: Args)
    ensures CallSpec(entries, NoKey, timeout, f, args) == Step(Failure(UnspecifiedKey), entries, false)
  {
  }

  /** A callable key is applied to the arguments; a template key is filled with them. */
  lemma KeyDerivation<V>(entries: map<string, Entry<V>>, key: KeyStrategy, timeout: int,
                         f: Args -> Outcome<V>, args: Args)
    requires !key.NoKey?
    ensures key.KeyFunction? ==> DeriveKey(key, args) == Success(key.derive(args))
    ensures key.KeyTemplate? && DeriveKey(key, args).Success? ==>
              forall k :: 0 <= k < |key.template| ==> Resolves(key.template[k], args)
    ensures key.KeyTemplate? && DeriveKey(key, args).Failure? ==>
              CallSpec(entries, key, timeout, f, args) == Step(Failure(DeriveKey(key, args).error), entries, false)
  {
  }

  /** The store is consulted only under the derived key. */
  lemma OnlyDerivedKeyMatters<V>(e1: map<string, Entry<V>>, e2: map<string, Entry<V>>, key: KeyStrategy,
                                 timeout: int, f: Args -> Outcome<V>, args: Args)
    requires DeriveKey(key, args).Success?
    requires Lookup(e1, DeriveKey(key, args).value) == Lookup(e2, DeriveKey(key, args).value)
    ensures CallSpec(e1, key, timeout, f, args).result == CallSpec(e2, key, timeout, f, args).result
    ensures CallSpec(e1, key, timeout, f, args).invoked == CallSpec(e2, key, timeout, f, args).invoked
  {
  }

  /** A non-`None` stored value is returned as it is, and `f` does not run. */
  lemma HitSkipsCompute<V>(entries: map<string, Entry<V>>, key: KeyStrategy, timeout: int,
                           f: Args -> Outcome<V>, args: Args, k: string)
    requires DeriveKey(key, args) == Success(k)
    requires Lookup(entries, k).Some?
    ensures CallSpec(entries, key, timeout, f, args) == Step(Success(Lookup(entries, k)), entries, false)
  {
  }

  /** On a miss, what `f` returns is stored under the key with the timeout, and returned. */
  lemma MissStoresResult<V>(entries: map<string, Entry<V>>, key: KeyStrategy, timeout: int,
                            f: Args -> Outcome<V>, args: Args, k: string, v: Option<V>)
    requires DeriveKey(key, args) == Success(k)
    requires Lookup(entries, k).None?
    requires f(args) == Returned(v)
    ensures CallSpec(entries, key, timeout, f, args) == Step(Success(v), entries[k := Entry(v, timeout)], true)
  {
  }

  /** A call in which `f` raises propagates the exception, stores nothing, and the next identical call runs `f` again. */
  lemma RaiseIsNotCached<V>(entries: map<string, Entry<V>>, key: KeyStrategy, timeout: int,
                            f: Args -> Outcome<V>, args: Args)
    requires CallSpec(entries, key, timeout, f, args).invoked
    requires f(args).Raised?
    ensures CallSpec(entries, key, timeout, f, args) == Step(Failure(f(args).exc), entries, true)
    ensures CallSpec(CallSpec(entries, key, timeout, f, args).entries, key, timeout, f, args).invoked
  {
  }

  /** After a call that computed a non-`None` value, an identical call is a hit with the same result. */
  lemma SecondCallHits<V>(entries: map<string, Entry<V>>, key: KeyStrategy, timeout: int,
                          f: Args -> Outcome<V>, args: Args)
    requires f(args).Returned? && f(args).value.Some?
    ensures var first := CallSpec(entries, key, timeout, f, args);
            var second := CallSpec(first.entries, key, timeout, f, args);
            !second.invoked && second.result == first.result && second.entries == first.entries
  {
  }

  /** A `None` result is stored but never counts as a hit: every identical call runs `f` again. */
  lemma NoneIsNeverAHit<V>(entries: map<string, Entry<V>>, key: KeyStrategy, timeout: int,
                           f: Args -> Outcome<V>, args: Args)
    requires DeriveKey(key, args).Success?
    requires f(args) == Returned(None)
    requires CallSpec(entries, key, timeout, f, args).invoked
    ensures var first := CallSpec(entries, key, timeout, f, args);
            first.result == Success(None) &&
            DeriveKey(key, args).value in first.entries &&
            CallSpec(first.entries, key, timeout, f, args).invoked
  {
  }

  // ---------------------------------------------------------------------------
  // The shared store and the decorated function, as objects
  // ---------------------------------------------------------------------------

  /** The backing cache object (`SimpleCache` in the application), seen through `get` and `set`. */
  class Store<V> {
    var entries: map<string, Entry<V>>

    constructor ()
      ensures entries == map[]
    {
      entries := map[];
    }

    /** `cache.get(key)`. */
    method Get(k: string) returns (rv: Option<V>)
      ensures rv == Lookup(entries, k)
    {
      if k in entries {
        rv := entries[k].value;
      } else {
        rv := None;
      }
    }

    /** `cache.set(key, value, timeout=timeout)`. */
    method Set(k: string, value: Option<V>, timeout: int)
      modifies this
      ensures entries == old(entries)[k := Entry(value, timeout)]
    {
      entries := entries[k := Entry(value, timeout)];
    }
  }

  /** `cached(store, timeout, key)(f)`: the decorated function; `calls` records every run of `f`. */
  class CachedFunction<V> {
    const store: Store<V>
    const timeout: int
    const key: KeyStrategy
    const f: Args -> Outcome<V>
    ghost var calls: seq<Args>

    /** Decorating never fails: a missing key is reported only when the function is called. */
    constructor (store: Store<V>, timeout: int, key: KeyStrategy, f: Args -> Outcome<V>)
      ensures this.store == store && this.timeout == timeout && this.key == key && this.f == f
      ensures calls == []
    {
      this.store := store;
      this.timeout := timeout;
      this.key := key;
      this.f := f;
      calls := [];
    }

    /** `decorated_function(*args, **kwargs)`. */
    method Call(args: Args) returns (r: Result<Option<V>, Exception>)
      modifies this, store
      ensures var s := CallSpec(old(store.entries), key, timeout, f, args);
              r == s.result && store.entries == s.entries &&
              calls == old(calls) + (if s.invoked then [args] else [])
    {
      var cacheKey: string;
      match key {
        case KeyFunction(derive) =>
          cacheKey := derive(args);
        case KeyTemplate(template) =>
          var formatted := Format(template, args);
          if formatted.Failure? {
            return Failure(formatted.error);
          }
          cacheKey := formatted.value;
        case NoKey =>
          return Failure(UnspecifiedKey);
      }
      var rv := store.Get(cacheKey);
      if rv.Some? {
        return Success(rv);
      }
      var outcome := f(args);
      calls := calls + [args];
      match outcome {
        case Raised(e) =>
          return Failure(e);
        case Returned(v) =>
          store.Set(cacheKey, v, timeout);
          return Success(v);
      }
    }
  }

  // ---------------------------------------------------------------------------
  // The decorator test of LulzHistory/tests/test_utilities.py, lines 8-29
  // ---------------------------------------------------------------------------

  const InvalidArgument := Exception("ValueError", "Invalid argument")

  /**
   * What Python raises when a call does not bind exactly the one parameter of `myfunc(arg)`.
   * The kind is exact; the message is approximate, since Python's text depends on the call
   * (an unexpected keyword, or the number of arguments given).
   */
  const WrongArguments := Exception("TypeError", "myfunc() takes exactly 1 argument")

  /** The call binds exactly the parameter `arg` of `myfunc(arg)`: by position, or as `arg=`. */
  predicate BindsArg(args: Args) {
    || (|args.positional| == 1 && args.keywords == map[])
    || (args.positional == [] && args.keywords.Keys == {"arg"})
  }

  /** The value bound to `arg`. */
  function ArgValue(args: Args): Value
    requires BindsArg(args)
  {
    if |args.positional| == 1 then args.positional[0] else args.keywords["arg"]
  }

  /**
   * The test's `myfunc(arg)`: "Retval #arg" for 0 <= arg <= 5, otherwise `ValueError`;
   * a call that does not bind exactly `arg` raises `TypeError` before the body runs.
   * Under Python 2 a string argument compares greater than 5, so it raises `ValueError`.
   * A return is never `None`, so every successful call is cached.
   */
  function MyFunc(args: Args): (o: Outcome<string>)
    ensures !BindsArg(args) ==> o == Raised(WrongArguments)
    ensures o.Returned? <==> BindsArg(args) && ArgValue(args).Int? && 0 <= ArgValue(args).i <= 5
    ensures o.Returned? ==>
              && o.value.Some? && |o.value.value| == 9 && o.value.value[..8] == "Retval #"
              && o.value.value[8] == DigitChar(ArgValue(args).i)
    ensures BindsArg(args) && o.Raised? ==> o.exc == InvalidArgument
  {
    if !BindsArg(args) then Raised(WrongArguments)
    else
      var arg := ArgValue(args);
      if arg.Int? && 0 <= arg.i <= 5 then Returned(Some("Retval #" + Render(arg)))
      else Raised(InvalidArgument)
  }

  function IntArg(n: int): Args {
    Args([Int(n)], map[])
  }

  /** The test's key template `'myfunc/{0}'`. */
  const MyFuncKey := KeyTemplate([Literal("myfunc/"), Positional(0)])

  /** The key the test's template derives for `myfunc(n)`. */
  lemma MyFuncKeyOf(n: nat)
    ensures DeriveKey(MyFuncKey, IntArg(n)) == Success("myfunc/" + Natural(n))
  {
    var template := MyFuncKey.template;
    assert template[1..] == [Positional(0)];
    assert template[1..][1..] == [];
    assert Substitute(template[0], IntArg(n)) == Success("myfunc/");
    assert Format(template[1..][1..], IntArg(n)) == Success("");
    assert Substitute(template[1..][0], IntArg(n)) == Success(Natural(n));
    assert Natural(n) + "" == Natural(n);
    assert Format(template[1..], IntArg(n)) == Success(Natural(n));
  }

  /** Distinct natural arguments of the test's `myfunc` are cached under distinct keys. */
  lemma DistinctArgumentsDistinctKeys(a: nat, b: nat)
    requires a != b
    ensures DeriveKey(MyFuncKey, IntArg(a)) != DeriveKey(MyFuncKey, IntArg(b))
  {
    MyFuncKeyOf(a);
    MyFuncKeyOf(b);
    NaturalInjective(a, b);
    var ka := "myfunc/" + Natural(a);
    var kb := "myfunc/" + Natural(b);
    assert ka[7..] == Natural(a) && kb[7..] == Natural(b);
  }

  /** The decimal texts of the test's arguments. */
  lemma TestArgumentsRendered()
    ensures Natural(0) == "0" && Natural(1) == "1" && Natural(2) == "2" && Natural(3) == "3"
    ensures Natural(200) == "200"
  {
    assert Natural(20) == Natural(2) + "0" == "20";
    assert Natural(200) == Natural(20) + "0" == "200";
  }

  /** The keys the test's calls derive: distinct arguments give distinct keys. */
  lemma MyFuncKeys()
    ensures DeriveKey(MyFuncKey, IntArg(0)) == Success("myfunc/0")
    ensures DeriveKey(MyFuncKey, IntArg(1)) == Success("myfunc/1")
    ensures DeriveKey(MyFuncKey, IntArg(2)) == Success("myfunc/2")
    ensures DeriveKey(MyFuncKey, IntArg(3)) == Success("myfunc/3")
    ensures DeriveKey(MyFuncKey, IntArg(200)) == Success("myfunc/200")
  {
    MyFuncKeyOf(0);
    MyFuncKeyOf(1);
    MyFuncKeyOf(2);
    MyFuncKeyOf(3);
    MyFuncKeyOf(200);
    TestArgumentsRendered();
    assert "myfunc/" + "0" == "myfunc/0";
    assert "myfunc/" + "1" == "myfunc/1";
    assert "myfunc/" + "2" == "myfunc/2";
    assert "myfunc/" + "3" == "myfunc/3";
    assert "myfunc/" + "200" == "myfunc/200";
  }

  /**
   * Calls that do not bind exactly `arg` raise `TypeError`: `myfunc(1, x=0)` through
   * the decorator raises and stores nothing, and `myfunc(1, 2)` raises too. The undecorated
   * `myfunc(arg=1)` returns, but through the decorator the key template `{0}` finds no
   * positional argument and raises `IndexError` before `myfunc` runs.
   */
  lemma WrongArgumentsRaise()
    ensures CallSpec(map[], MyFuncKey, 30, MyFunc, Args([Int(1)], map["x" := Int(0)]))
            == Step(Failure(WrongArguments), map[], true)
    ensures MyFunc(Args([Int(1), Int(2)], map[])) == Raised(WrongArguments)
    ensures MyFunc(Args([], map["arg" := Int(1)])) == Returned(Some("Retval #1"))
    ensures CallSpec(map[], MyFuncKey, 30, MyFunc, Args([], map["arg" := Int(1)]))
            == Step(Failure(Exception("IndexError", "tuple index out of range")), map[], false)
  {
    var extra := Args([Int(1)], map["x" := Int(0)]);
    assert !BindsArg(extra) by {
      assert "x" in extra.keywords;
    }
    var template := MyFuncKey.template;
    assert template[1..] == [Positional(0)];
    assert template[1..][1..] == [];
    assert Format(template, extra).Success?;
    assert BindsArg(Args([], map["arg" := Int(1)])) by {
      assert map["arg" := Int(1)].Keys == {"arg"};
    }
    var byName := Args([], map["arg" := Int(1)]);
    assert ArgValue(byName) == Int(1);
    assert Render(Int(1)) == "1" by {
      assert Natural(1) == [DigitChar(1)] && DigitChar(1) == '1';
    }
    assert MyFunc(byName) == Returned(Some("Retval #" + Render(Int(1))));
    assert "Retval #" + "1" == "Retval #1";
    assert Substitute(Positional(0), byName).Failure?;
    assert Format(template, byName).Failure?;
  }

  /** What the test's `myfunc` returns or raises for the arguments the test uses. */
  lemma MyFuncResults()
    ensures MyFunc(IntArg(0)) == Returned(Some("Retval #0"))
    ensures MyFunc(IntArg(1)) == Returned(Some("Retval #1"))
    ensures MyFunc(IntArg(2)) == Returned(Some("Retval #2"))
    ensures MyFunc(IntArg(3)) == Returned(Some("Retval #3"))
    ensures MyFunc(IntArg(200)) == Raised(InvalidArgument)
  {
    assert "Retval #" + "0" == "Retval #0";
    assert "Retval #" + "1" == "Retval #1";
    assert "Retval #" + "2" == "Retval #2";
    assert "Retval #" + "3" == "Retval #3";
  }

  /** The store contents of the test after its first, second and third call. */
  const AfterFirst := map["myfunc/0" := Entry(Some("Retval #0"), 30)]
  const AfterSecond := AfterFirst["myfunc/1" := Entry(Some("Retval #1"), 30)]
  const AfterThird := AfterSecond["myfunc/2" := Entry(Some("Retval #2"), 30)]

  /** Each call of the test, as the specification of one call has it. */
  lemma FunctionCacheSteps()
    ensures CallSpec(map[], MyFuncKey, 30, MyFunc, IntArg(0)) == Step(Success(Some("Retval #0")), AfterFirst, true)
    ensures CallSpec(AfterFirst, MyFuncKey, 30, MyFunc, IntArg(1)) == Step(Success(Some("Retval #1")), AfterSecond, true)
    ensures CallSpec(AfterSecond, MyFuncKey, 30, MyFunc, IntArg(2)) == Step(Success(Some("Retval #2")), AfterThird, true)
    ensures CallSpec(AfterThird, MyFuncKey, 30, MyFunc, IntArg(1)) == Step(Success(Some("Retval #1")), AfterThird, false)
    ensures CallSpec(AfterThird, MyFuncKey, 30, MyFunc, IntArg(200)) == Step(Failure(InvalidArgument), AfterThird, true)
    ensures CallSpec(AfterThird, MyFuncKey, 30, MyFunc, IntArg(2)) == Step(Success(Some("Retval #2")), AfterThird, false)
    ensures CallSpec(AfterThird, MyFuncKey, 30, MyFunc, IntArg(3)).result == Success(Some("Retval #3"))
    ensures CallSpec(AfterThird, MyFuncKey, 30, MyFunc, IntArg(3)).invoked
  {
    MyFuncKeys();
    MyFuncResults();
    assert "myfunc/200" !in AfterThird;
    assert "myfunc/3" !in AfterThird;
  }

  /** The first three calls of the test, with 0, 1 and 2 on an empty cache: each a miss that runs `myfunc`. */
  method FillCache() returns (myfunc: CachedFunction<string>, results: seq<Result<Option<string>, Exception>>)
    ensures fresh(myfunc) && fresh(myfunc.store)
    ensures myfunc.key == MyFuncKey && myfunc.timeout == 30 && myfunc.f == MyFunc
    ensures myfunc.store.entries == AfterThird
    ensures myfunc.calls == [IntArg(0), IntArg(1), IntArg(2)]
    ensures results == [Success(Some("Retval #0")), Success(Some("Retval #1")), Success(Some("Retval #2"))]
  {
    FunctionCacheSteps();
    var store := new Store<string>();
    myfunc := new CachedFunction(store, 30, MyFuncKey, MyFunc);
    var r0 := myfunc.Call(IntArg(0));
    assert store.entries == AfterFirst;
    var r1 := myfunc.Call(IntArg(1));
    assert store.entries == AfterSecond;
    var r2 := myfunc.Call(IntArg(2));
    results := [r0, r1, r2];
  }

  /** The fourth and fifth calls, with 1 and 200: a hit, then a raise that stores nothing. */
  method HitThenRaise(myfunc: CachedFunction<string>) returns (results: seq<Result<Option<string>, Exception>>)
    requires myfunc.key == MyFuncKey && myfunc.timeout == 30 && myfunc.f == MyFunc
    requires myfunc.store.entries == AfterThird
    modifies myfunc, myfunc.store
    ensures myfunc.store.entries == AfterThird
    ensures myfunc.calls == old(myfunc.calls) + [IntArg(200)]
    ensures results == [Success(Some("Retval #1")), Failure(InvalidArgument)]
  {
    FunctionCacheSteps();
    var r4 := myfunc.Call(IntArg(1));   // a hit: myfunc does not run
    var r5 := myfunc.Call(IntArg(200)); // myfunc raises; nothing is stored
    results := [r4, r5];
  }

  /** The sixth and seventh calls, with 2 and 3: a hit, then a miss that runs `myfunc`. */
  method HitThenMiss(myfunc: CachedFunction<string>) returns (results: seq<Result<Option<string>, Exception>>)
    requires myfunc.key == MyFuncKey && myfunc.timeout == 30 && myfunc.f == MyFunc
    requires myfunc.store.entries == AfterThird
    modifies myfunc, myfunc.store
    ensures myfunc.calls == old(myfunc.calls) + [IntArg(3)]
    ensures results == [Success(Some("Retval #2")), Success(Some("Retval #3"))]
  {
    FunctionCacheSteps();
    var r6 := myfunc.Call(IntArg(2));   // a hit
    var r7 := myfunc.Call(IntArg(3));
    results := [r6, r7];
  }

  /** The last four calls of the test, with 1, 200, 2 and 3: two hits, a raise that stores nothing, and a miss. */
  method ReuseCache(myfunc: CachedFunction<string>) returns (results: seq<Result<Option<string>, Exception>>)
    requires myfunc.key == MyFuncKey && myfunc.timeout == 30 && myfunc.f == MyFunc
    requires myfunc.store.entries == AfterThird
    modifies myfunc, myfunc.store
    ensures myfunc.calls == old(myfunc.calls) + [IntArg(200), IntArg(3)]
    ensures results == [Success(Some("Retval #1")), Failure(InvalidArgument), Success(Some("Retval #2")),
                        Success(Some("Retval #3"))]
  {
    var first := HitThenRaise(myfunc);
    var second := HitThenMiss(myfunc);
    results := first + second;
  }

  /** `@cached(30, 'myfunc/{0}')` over `myfunc`, called with 0, 1, 2, 1, 200, 2, 3. */
  method FunctionCacheScenario() returns (results: seq<Result<Option<string>, Exception>>, ghost ran: seq<Args>)
    ensures results == [Success(Some("Retval #0")), Success(Some("Retval #1")), Success(Some("Retval #2")),
                        Success(Some("Retval #1")), Failure(InvalidArgument), Success(Some("Retval #2")),
                        Success(Some("Retval #3"))]
    ensures ran == [IntArg(0), IntArg(1), IntArg(2), IntArg(200), IntArg(3)]
  {
    var myfunc, first := FillCache();
    var rest := ReuseCache(myfunc);
    results := first + rest;
    ran := myfunc.calls;
  }
}

=== FILE: history.dfy ===
/**
 * The per-commit logic of `lulz_history` in LulzHistory/views.py: `find_pic`,
 * which looks up the picture whose key is a prefix of a commit sha (lines
 * 216-219), the loop that annotates each commit with its picture or its
 * author's avatar (lines 221-230), and the `owner/repo` split of `goto`
 * (lines 101-106).
 */
module History {
  import opened Wrappers
  import Text

  /** `s.startswith(p)`. */
  predicate IsPrefix(p: string, s: string) {
    |p| <= |s| && s[..|p|] == p
  }

  /** Some key of `pics` is a prefix of `sha`. */
  ghost predicate HasPrefixKey(pics: map<string, string>, sha: string) {
    exists key :: key in pics && IsPrefix(key, sha)
  }

  // ---------------------------------------------------------------------------
  // find_pic
  // ---------------------------------------------------------------------------

  /**
   * `find_pic(pics, sha)`: the dictionary is iterated in an order Python does not
   * fix, so the key tried next is chosen arbitrarily among those not yet tried;
   * the first key that is a prefix of `sha` gives the result.
   */
  method FindPic(pics: map<string, string>, sha: string) returns (pic: Option<string>)
    ensures pic.Some? ==> exists key :: key in pics && IsPrefix(key, sha) && pics[key] == pic.value
    ensures pic.None? <==> !HasPrefixKey(pics, sha)
    ensures forall key :: key in pics && IsPrefix(key, sha) && (forall other :: other in pics && IsPrefix(other, sha) ==> other == key)
              ==> pic == Some(pics[key])
  {
    var untried := pics.Keys;
    while untried != {}
      invariant untried <= pics.Keys
      invariant forall key :: key in pics && key !in untried ==> !IsPrefix(key, sha)
      decreases |untried|
    {
      var key :| key in untried;
      if IsPrefix(key, sha) {
        return Some(pics[key]);
      }
      untried := untried - {key};
    }
    return None;
  }

  // ---------------------------------------------------------------------------
  // The annotation loop of lulz_history
  // ---------------------------------------------------------------------------

  /** The `author` object of a commit as the commits API returns it. */
  datatype Author = Author(login: string, avatarUrl: string)

  /** A commit dictionary: its sha, its author, and the `pic` and `is_lulz` entries the loop adds. */
  datatype Commit = Commit(sha: string, author: Author, pic: Option<string>, isLulz: Option<bool>)

  /**
   * `after` is `before` annotated against the author's pictures: the picture of
   * a key that prefixes the sha with `is_lulz` set, or else the author's avatar
   * with `is_lulz` cleared. Nothing else of the commit changes.
   */
  ghost predicate Annotated(pics: map<string, string>, before: Commit, after: Commit) {
    (exists key :: key in pics && IsPrefix(key, before.sha) && after == before.(pic := Some(pics[key]), isLulz := Some(true)))
    || (!HasPrefixKey(pics, before.sha) && after == before.(pic := Some(before.author.avatarUrl), isLulz := Some(false)))
  }

  /**
   * The loop over `commits`, each looked up in the pictures of its author's
   * repository; `allPics` holds an entry for every author, as lines 207-214
   * build it.
   */
  method AnnotateCommits(commits: array<Commit>, allPics: map<string, map<string, string>>)
    requires forall i :: 0 <= i < commits.Length ==> commits[i].author.login in allPics
    modifies commits
    ensures forall i :: 0 <= i < commits.Length ==>
              Annotated(allPics[old(commits[i]).author.login], old(commits[i]), commits[i])
  {
    for i := 0 to commits.Length
      invariant forall j :: 0 <= j < i ==> Annotated(allPics[old(commits[j]).author.login], old(commits[j]), commits[j])
      invariant forall j :: i <= j < commits.Length ==> commits[j] == old(commits[j])
    {
      var c := commits[i];
      var pic := FindPic(allPics[c.author.login], c.sha);
      if pic.Some? {
        commits[i] := c.(pic := pic, isLulz := Some(true));
      } else {
        commits[i] := c.(pic := Some(c.author.avatarUrl), isLulz := Some(false));
      }
    }
  }

  /**
   * An annotated commit keeps its sha and author, always has a picture, and is
   * marked lulz exactly when some key of the author's pictures prefixes its sha;
   * if it is not, its picture is the avatar.
   */
  lemma AnnotatedMeaning(pics: map<string, string>, before: Commit, after: Commit)
    requires Annotated(pics, before, after)
    ensures after.sha == before.sha && after.author == before.author
    ensures after.pic.Some? && after.isLulz.Some?
    ensures after.isLulz == Some(true) <==> HasPrefixKey(pics, before.sha)
    ensures after.isLulz == Some(false) ==> after.pic == Some(before.author.avatarUrl)
    ensures after.isLulz == Some(true) ==> exists key :: key in pics && IsPrefix(key, before.sha) && after.pic == Some(pics[key])
  {
  }

  /** An author without pictures (an empty repository, or a scan whose first request failed) gets the avatar on every commit. */
  lemma NoPicturesMeansAvatars(before: Commit, after: Commit)
    requires Annotated(map[], before, after)
    ensures after == before.(pic := Some(before.author.avatarUrl), isLulz := Some(false))
  {
  }

  // ---------------------------------------------------------------------------
  // goto
  // ---------------------------------------------------------------------------

  /** What `goto` answers: a redirect to the history of `owner/repo`, a 400, or a missing `repo` argument. */
  datatype GotoOutcome =
    | Redirect(owner: string, repo: string)
    | BadRequest(message: string, status: int)
    | MissingArgument(name: string)

  /**
   * `goto()` on the query argument `repo`, absent or present: a redirect exactly
   * when the argument holds one slash, naming the slash-free texts around it;
   * ("Bad repo name", 400) otherwise.
   */
  function Goto(arg: Option<string>): (r: GotoOutcome)
    ensures r.MissingArgument? <==> arg.None?
    ensures arg.Some? ==> (r.Redirect? <==> Text.Count(arg.value, '/') == 1)
    ensures arg.Some? && !r.Redirect? ==> r == BadRequest("Bad repo name", 400)
    ensures r.Redirect? ==> arg == Some(r.owner + "/" + r.repo) && '/' !in r.owner && '/' !in r.repo
  {
    match arg
    case None => MissingArgument("repo")
    case Some(s) =>
      var parts := Text.Split(s, '/');
      Text.SplitCount(s, '/');
      if |parts| != 2 then BadRequest("Bad repo name", 400)
      else
        Text.JoinSplit(s, '/');
        Text.SplitPiecesAreFree(s, '/');
        assert parts[1..] == [parts[1]];
        assert Text.Join(parts, '/') == parts[0] + "/" + parts[1];
        Redirect(parts[0], parts[1])
  }

  /** For a slash-free owner and repository, `goto` redirects to exactly that pair. */
  lemma GotoOfOwnerAndRepo(owner: string, repo: string)
    requires '/' !in owner && '/' !in repo
    ensures Goto(Some(owner + "/" + repo)) == Redirect(owner, repo)
  {
    var parts := [owner, repo];
    assert parts[1..] == [repo];
    assert Text.Join(parts, '/') == owner + "/" + repo;
    Text.SplitJoin(parts, '/');
  }
}

=== FILE: pagination.dfy ===
/**
 * Paginated requests of LulzHistory/views.py: `dig_down_request`, `dig_down_merge`
 * and `request_all`, which follow each response's `next` link until a response
 * has none.
 *
 * A request is an abstract total function from URL to page. Python's loops run
 * for as long as the server keeps sending `next` links; the model asks for a
 * bound on the number of pages (`EndsWithin`) so that every traversal is finite.
 */
module Pagination {
  import opened Wrappers

  type Url = string

  /** One response: its JSON items, the URL of its `next` link if any, `resp.ok` and `resp.status_code`. */
  datatype Page<T> = Page(items: seq<T>, next: Option<Url>, ok: bool, status: int)

  /** The exception `dig_down_merge` raises: "Request failure (code: <code>)". */
  datatype RequestFailure = RequestFailure(code: int)

  /** The exception `github.request` raises for a response that is not ok. */
  datatype HttpError = HttpError(status: int)

  // ---------------------------------------------------------------------------
  // The chain of pages linked by `next`
  // ---------------------------------------------------------------------------

  /** Following `next` links from `url` reaches a page without one within `bound` pages. */
  predicate EndsWithin<T>(fetch: Url -> Page<T>, url: Url, bound: nat)
    decreases bound
  {
    bound > 0 && (fetch(url).next.None? || EndsWithin(fetch, fetch(url).next.value, bound - 1))
  }

  /** The URLs requested when following `next` links from `url`, in request order. */
  function ChainUrls<T>(fetch: Url -> Page<T>, url: Url, bound: nat): (us: seq<Url>)
    requires EndsWithin(fetch, url, bound)
    ensures 1 <= |us| <= bound
    decreases bound
  {
    match fetch(url).next
    case None => [url]
    case Some(n) => [url] + ChainUrls(fetch, n, bound - 1)
  }

  /** `us` is a chain from `url`: it starts there, each page links to the next URL, and the last has no link. */
  predicate IsChain<T>(fetch: Url -> Page<T>, url: Url, us: seq<Url>) {
    && |us| >= 1
    && us[0] == url
    && (forall k :: 0 <= k < |us| - 1 ==> fetch(us[k]).next == Some(us[k + 1]))
    && fetch(us[|us| - 1]).next.None?
  }

  /** The pages requested along `us`. */
  function Fetched<T>(fetch: Url -> Page<T>, us: seq<Url>): (ps: seq<Page<T>>)
    ensures |ps| == |us|
    ensures forall k :: 0 <= k < |us| ==> ps[k] == fetch(us[k])
  {
    seq(|us|, k requires 0 <= k < |us| => fetch(us[k]))
  }

  /** The pages reached from `url`, in order. */
  function ChainPages<T>(fetch: Url -> Page<T>, url: Url, bound: nat): seq<Page<T>>
    requires EndsWithin(fetch, url, bound)
  {
    Fetched(fetch, ChainUrls(fetch, url, bound))
  }

  /** The URLs `ChainUrls` lists are exactly the chain linked by `next`. */
  lemma {:induction false} ChainUrlsIsChain<T>(fetch: Url -> Page<T>, url: Url, bound: nat)
    requires EndsWithin(fetch, url, bound)
    ensures IsChain(fetch, url, ChainUrls(fetch, url, bound))
    decreases bound
  {
    var us := ChainUrls(fetch, url, bound);
    match fetch(url).next
    case None =>
    case Some(n) =>
      ChainUrlsIsChain(fetch, n, bound - 1);
      var rest := ChainUrls(fetch, n, bound - 1);
      assert us == [url] + rest;
      forall k | 0 <= k < |us| - 1
        ensures fetch(us[k]).next == Some(us[k + 1])
      {
        if k > 0 {
          assert us[k] == rest[k - 1] && us[k + 1] == rest[k];
        }
      }
  }

  /** Any chain from `url` is the one `ChainUrls` lists, whatever bound is used. */
  lemma {:induction false} ChainIsUnique<T>(fetch: Url -> Page<T>, url: Url, us: seq<Url>, bound: nat)
    requires IsChain(fetch, url, us)
    requires EndsWithin(fetch, url, bound)
    ensures us == ChainUrls(fetch, url, bound)
    decreases bound
  {
    match fetch(url).next
    case None =>
      assert |us| == 1;
    case Some(n) =>
      assert |us| > 1;
      assert us[1] == n;
      var rest := us[1..];
      forall k | 0 <= k < |rest| - 1
        ensures fetch(rest[k]).next == Some(rest[k + 1])
      {
        assert rest[k] == us[k + 1] && rest[k + 1] == us[k + 2];
      }
      assert fetch(rest[|rest| - 1]).next.None? by {
        assert rest[|rest| - 1] == us[|us| - 1];
      }
      ChainIsUnique(fetch, n, rest, bound - 1);
      assert us == [url] + rest;
  }

  // ---------------------------------------------------------------------------
  // What the callers compute from the chain
  // ---------------------------------------------------------------------------

  /** The items of `pages`, page after page, each page's items in their order. */
  function Flatten<T>(pages: seq<Page<T>>): seq<T> {
    if pages == [] then [] else pages[0].items + Flatten(pages[1..])
  }

  lemma {:induction false} FlattenAppend<T>(a: seq<Page<T>>, b: seq<Page<T>>)
    ensures Flatten(a + b) == Flatten(a) + Flatten(b)
  {
    if a == [] {
      assert a + b == b;
    } else {
      assert (a + b)[1..] == a[1..] + b;
      FlattenAppend(a[1..], b);
    }
  }

  /** The number of items is the sum of the page sizes. */
  function TotalItems<T>(pages: seq<Page<T>>): nat {
    if pages == [] then 0 else |pages[0].items| + TotalItems(pages[1..])
  }

  lemma {:induction false} FlattenLength<T>(pages: seq<Page<T>>)
    ensures |Flatten(pages)| == TotalItems(pages)
  {
    if pages != [] {
      FlattenLength(pages[1..]);
    }
  }

  /** The index of the first page that is not ok, or `|pages|` when every page is. */
  function FirstFailure<T>(pages: seq<Page<T>>): (i: nat)
    ensures i <= |pages|
    ensures forall k :: 0 <= k < i ==> pages[k].ok
    ensures i < |pages| ==> !pages[i].ok
  {
    if pages == [] || !pages[0].ok then 0 else 1 + FirstFailure(pages[1..])
  }

  /**
   * How many pages of the chain `dig_down_merge` requests: it stops right after
   * the first page that is not ok, or runs off the end of the chain.
   */
  function RequestedCount<T>(pages: seq<Page<T>>): (n: nat)
    ensures n <= |pages|
  {
    if pages == [] then 0
    else if !pages[0].ok then 1
    else 1 + RequestedCount(pages[1..])
  }

  /**
   * The pages requested are all ok except possibly the last, which is not ok
   * unless the whole chain was requested and every page is ok; a non-empty
   * chain has at least one page requested.
   */
  lemma {:induction false} RequestedCountMeaning<T>(pages: seq<Page<T>>)
    ensures |pages| > 0 ==> RequestedCount(pages) >= 1
    ensures forall k :: 0 <= k < RequestedCount(pages) - 1 ==> pages[k].ok
    ensures RequestedCount(pages) >= 1 ==>
              || !pages[RequestedCount(pages) - 1].ok
              || (RequestedCount(pages) == |pages| && forall k :: 0 <= k < |pages| ==> pages[k].ok)
  {
    if pages != [] && pages[0].ok {
      var tail := pages[1..];
      RequestedCountMeaning(tail);
      assert forall k :: 1 <= k < |pages| ==> pages[k] == tail[k - 1];
    }
  }

  /**
   * What `dig_down_merge` returns or raises for the chain `pages`: every item in
   * page order when every page is ok, otherwise the status of the first page
   * that is not.
   */
  function Merged<T>(pages: seq<Page<T>>): (r: Result<seq<T>, RequestFailure>)
    ensures r.Success? <==> forall k :: 0 <= k < |pages| ==> pages[k].ok
    ensures r.Success? ==> r.value == Flatten(pages)
    ensures r.Failure? ==>
              exists k :: 0 <= k < |pages| && !pages[k].ok && r.error.code == pages[k].status &&
                          forall j :: 0 <= j < k ==> pages[j].ok
  {
    var i := FirstFailure(pages);
    if i == |pages| then Success(Flatten(pages))
    else
      assert !pages[i].ok;
      Failure(RequestFailure(pages[i].status))
  }

  /** The first page that is not ok, located. */
  lemma FirstFailureAt<T>(pages: seq<Page<T>>, m: nat)
    requires m < |pages| && !pages[m].ok
    requires forall k :: 0 <= k < m ==> pages[k].ok
    ensures FirstFailure(pages) == m
  {
    var i := FirstFailure(pages);
    assert i < |pages| ==> !pages[i].ok;
  }

  /** With every page ok there is no failing page. */
  lemma {:induction false} NoFailure<T>(pages: seq<Page<T>>)
    requires forall k :: 0 <= k < |pages| ==> pages[k].ok
    ensures FirstFailure(pages) == |pages|
  {
    if pages != [] {
      assert pages[0].ok;
      forall k | 0 <= k < |pages[1..]|
        ensures pages[1..][k].ok
      {
        assert pages[1..][k] == pages[k + 1];
      }
      NoFailure(pages[1..]);
    }
  }

  /** The merge of a chain whose page `m` is the first not ok fails with that page's status. */
  lemma MergeFailsAt<T>(pages: seq<Page<T>>, m: nat)
    requires m < |pages| && !pages[m].ok
    requires forall k :: 0 <= k < m ==> pages[k].ok
    ensures FirstFailure(pages) == m && RequestedCount(pages) == m + 1
    ensures Merged(pages) == Failure(RequestFailure(pages[m].status))
  {
    FirstFailureAt(pages, m);
    RequestedCountMeaning(pages);
    var n := RequestedCount(pages);
    assert n >= 1 && !pages[n - 1].ok by {
      assert !(forall k :: 0 <= k < |pages| ==> pages[k].ok) by {
        assert !pages[m].ok;
      }
    }
  }

  /** The merge of a chain whose pages are all ok returns all their items. */
  lemma MergeSucceeds<T>(pages: seq<Page<T>>)
    requires forall k :: 0 <= k < |pages| ==> pages[k].ok
    ensures FirstFailure(pages) == |pages| && RequestedCount(pages) == |pages|
    ensures Merged(pages) == Success(Flatten(pages))
    ensures Flatten(pages[..|pages|]) == Flatten(pages)
  {
    assert pages[..|pages|] == pages;
    NoFailure(pages);
    RequestedCountMeaning(pages);
  }

  /** One more page merged: its items follow those of the pages before it. */
  lemma FlattenSnoc<T>(pages: seq<Page<T>>, m: nat)
    requires m < |pages|
    ensures Flatten(pages[..m + 1]) == Flatten(pages[..m]) + pages[m].items
  {
    assert pages[..m + 1] == pages[..m] + [pages[m]];
    FlattenAppend(pages[..m], [pages[m]]);
    assert Flatten([pages[m]]) == pages[m].items + Flatten([pages[m]][1..]);
  }

  // ---------------------------------------------------------------------------
  // dig_down_request (views.py, lines 66-78): a generator, as an object
  // ---------------------------------------------------------------------------

  /**
   * The generator `dig_down_request(do_req, url)`. `url` is the URL it requests
   * when resumed, `None` once it has returned. `chain` is the chain of URLs it
   * walks, `pos` how many of them it has requested, and `yielded` those URLs.
   */
  class PageCursor<T> {
    const fetch: Url -> Page<T>
    ghost const start: Url
    ghost const chain: seq<Url>
    var url: Option<Url>
    ghost var pos: nat
    ghost var yielded: seq<Url>

    ghost predicate Valid()
      reads this
    {
      && IsChain(fetch, start, chain)
      && pos <= |chain|
      && yielded == chain[..pos]
      && url == (if pos < |chain| then Some(chain[pos]) else None)
    }

    /** The URLs the generator will still request if it is drained. */
    ghost function Pending(): seq<Url>
      reads this
      requires pos <= |chain|
    {
      chain[pos..]
    }

    /** Creating the generator requests nothing; it will walk the chain from `url`. */
    constructor (fetch: Url -> Page<T>, url: Url, ghost bound: nat)
      requires EndsWithin(fetch, url, bound)
      ensures Valid()
      ensures this.fetch == fetch && start == url && chain == ChainUrls(fetch, url, bound)
      ensures this.url == Some(url) && pos == 0 && yielded == []
      ensures Pending() == ChainUrls(fetch, url, bound)
    {
      ChainUrlsIsChain(fetch, url, bound);
      this.fetch := fetch;
      start := url;
      chain := ChainUrls(fetch, url, bound);
      this.url := Some(url);
      pos := 0;
      yielded := [];
    }

    /** `next(gen)`: request the current URL and yield its response, or report that the generator is done. */
    method Next() returns (resp: Option<Page<T>>)
      requires Valid()
      modifies this
      ensures Valid()
      ensures old(url).None? ==> resp.None? && url.None? && pos == old(pos) && yielded == old(yielded)
      ensures old(url).Some? ==>
                && resp == Some(fetch(old(url).value))
                && yielded == old(yielded) + [old(url).value]
                && url == resp.value.next
                && pos == old(pos) + 1
    {
      if url.None? {
        return None;
      }
      var page := fetch(url.value);
      assert chain[..pos + 1] == chain[..pos] + [chain[pos]];
      yielded := yielded + [url.value];
      url := page.next;
      pos := pos + 1;
      resp := Some(page);
    }

    /** At every point, what was requested followed by what is still to come is the whole chain. */
    lemma RequestedThenPending()
      requires Valid()
      ensures yielded + Pending() == chain
      ensures url.None? <==> Pending() == []
    {
      assert chain[..pos] + chain[pos..] == chain;
    }
  }

  // ---------------------------------------------------------------------------
  // dig_down_merge (views.py, lines 81-88)
  // ---------------------------------------------------------------------------

  /**
   * `dig_down_merge(do_req, url)`: drain the generator, raising on the first page
   * that is not ok. `requested` lists the URLs fetched: the chain up to and
   * including the failing page, so no page after it is ever requested.
   */
  method DigDownMerge<T>(fetch: Url -> Page<T>, url: Url, ghost bound: nat)
    returns (r: Result<seq<T>, RequestFailure>, ghost requested: seq<Url>)
    requires EndsWithin(fetch, url, bound)
    ensures r == Merged(ChainPages(fetch, url, bound))
    ensures requested == ChainUrls(fetch, url, bound)[..RequestedCount(ChainPages(fetch, url, bound))]
  {
    ghost var us := ChainUrls(fetch, url, bound);
    ghost var pages := ChainPages(fetch, url, bound);
    var gen := new PageCursor(fetch, url, bound);
    var results := [];
    ghost var m := 0;
    var resp := gen.Next();
    while resp.Some?
      invariant gen.Valid() && gen.fetch == fetch && gen.chain == us
      invariant m <= |us|
      invariant resp.Some? ==> gen.pos == m + 1 && resp.value == pages[m]
      invariant resp.None? ==> m == |us| && gen.pos == |us|
      invariant forall k :: 0 <= k < m ==> pages[k].ok
      invariant results == Flatten(pages[..m])
      decreases |us| - gen.pos + (if resp.Some? then 1 else 0)
    {
      if !resp.value.ok {
        MergeFailsAt(pages, m);
        return Failure(RequestFailure(resp.value.status)), gen.yielded;
      }
      FlattenSnoc(pages, m);
      results := results + resp.value.items;
      m := m + 1;
      resp := gen.Next();
    }
    MergeSucceeds(pages);
    r := Success(results);
    requested := gen.yielded;
  }

  // ---------------------------------------------------------------------------
  // request_all (views.py, lines 91-98) over github.request (github.py, lines 65-70)
  // ---------------------------------------------------------------------------

  /** `github.request('GET', url)`: the response, or `HTTPError` when it is not ok. */
  function Request<T>(fetch: Url -> Page<T>, url: Url): (r: Result<Page<T>, HttpError>)
    ensures r.Success? <==> fetch(url).ok
    ensures r.Success? ==> r.value == fetch(url)
    ensures r.Failure? ==> r.error.status == fetch(url).status
  {
    var page := fetch(url);
    if page.ok then Success(page) else Failure(HttpError(page.status))
  }

  /**
   * Draining `request_all(url)`: the items it yields, in order, and the
   * `HTTPError` it raises if a page of the chain is not ok. Items of the pages
   * before the failing one have already been yielded when it raises.
   */
  method RequestAll<T>(fetch: Url -> Page<T>, url: Url, ghost bound: nat)
    returns (yielded: seq<T>, raised: Option<HttpError>)
    requires EndsWithin(fetch, url, bound)
    ensures var pages := ChainPages(fetch, url, bound);
            var i := FirstFailure(pages);
            && yielded == Flatten(pages[..i])
            && raised == (if i < |pages| then Some(HttpError(pages[i].status)) else None)
  {
    ghost var us := ChainUrls(fetch, url, bound);
    ghost var pages := Fetched(fetch, us);
    ChainUrlsIsChain(fetch, url, bound);
    var first := Request(fetch, url);
    if first.Failure? {
      return [], Some(first.error);
    }
    var response := first.value;
    yielded := response.items;
    assert pages[..1] == [pages[0]];
    ghost var n := 1;
    while response.next.Some?
      invariant 1 <= n <= |us|
      invariant response == pages[n - 1]
      invariant n < |us| ==> response.next == Some(us[n])
      invariant forall k :: 0 <= k < n ==> pages[k].ok
      invariant yielded == Flatten(pages[..n])
      decreases |us| - n
    {
      assert n < |us|;
      assert fetch(us[n - 1]).next == Some(us[n]);
      var r := Request(fetch, response.next.value);
      if r.Failure? {
        assert FirstFailure(pages) == n;
        return yielded, Some(r.error);
      }
      response := r.value;
      FlattenAppend(pages[..n], [pages[n]]);
      assert pages[..n + 1] == pages[..n] + [pages[n]];
      yielded := yielded + response.items;
      n := n + 1;
    }
    assert n == |us|;
    assert FirstFailure(pages) == |pages|;
    raised := None;
  }

  /**
   * Draining `request_all` and `dig_down_merge` agree. Both methods are specified
   * on the same `ChainPages`; with what `RequestAll` ensures written out as
   * `yielded` and `raised`, `Merged` is exactly the success with those items, or
   * the failure with the status `request_all` raises.
   */
  lemma RequestAllAgreesWithMerge<T>(pages: seq<Page<T>>)
    ensures var i := FirstFailure(pages);
            var yielded := Flatten(pages[..i]);
            var raised := if i < |pages| then Some(HttpError(pages[i].status)) else None;
            Merged(pages) == if raised.None? then Success(yielded) else Failure(RequestFailure(raised.value.status))
  {
    var i := FirstFailure(pages);
    if i == |pages| {
      assert pages[..i] == pages;
    }
  }

  // ---------------------------------------------------------------------------
  // A three-page chain
  // ---------------------------------------------------------------------------

  /** Three pages of 2, 2 and 1 items linked "p1" -> "p2" -> "p3"; `secondOk` is the status of "p2". */
  function ThreePages(secondOk: bool): Url -> Page<int> {
    u =>
      if u == "p1" then Page([1, 2], Some("p2"), true, 200)
      else if u == "p2" then Page([3, 4], Some("p3"), secondOk, if secondOk then 200 else 500)
      else if u == "p3" then Page([5], None, true, 200)
      else Page([], None, false, 404)
  }

  /** All five items come out in page order; with a failing second page the merge fails with its status. */
  lemma ThreePageChain()
    ensures EndsWithin(ThreePages(true), "p1", 3)
    ensures Merged(ChainPages(ThreePages(true), "p1", 3)) == Success([1, 2, 3, 4, 5])
    ensures Merged(ChainPages(ThreePages(false), "p1", 3)) == Failure(RequestFailure(500))
  {
    var good := ThreePages(true);
    var bad := ThreePages(false);
    assert ChainUrls(good, "p1", 3) == ["p1", "p2", "p3"];
    assert ChainUrls(bad, "p1", 3) == ["p1", "p2", "p3"];
    var gp := ChainPages(good, "p1", 3);
    assert gp == [good("p1"), good("p2"), good("p3")];
    assert [1, 2] + ([3, 4] + ([5] + [])) == [1, 2, 3, 4, 5];
    assert Flatten(gp) == [1, 2] + ([3, 4] + ([5] + [])) by {
      assert gp[1..] == [good("p2"), good("p3")];
      assert gp[1..][1..] == [good("p3")];
      assert gp[1..][1..][1..] == [];
    }
    assert FirstFailure(gp) == 3 by {
      assert gp[1..][1..] == [good("p3")];
    }
    var bp := ChainPages(bad, "p1", 3);
    assert bp == [bad("p1"), bad("p2"), bad("p3")];
    assert FirstFailure(bp) == 1 by {
      assert bp[1..] == [bad("p2"), bad("p3")];
    }
  }
}

=== FILE: pictures.dfy ===
/**
 * Picture discovery of LulzHistory/views.py: the file-name pattern `img_file_re`
 * (line 41) and `get_repo_pics`, whose nested `scan_subtree` walks a repository's
 * directories and records, for every matching picture, the commit sha it is
 * named after and the raw URL it is served from (lines 163-196).
 */
module Pictures {
  import opened Wrappers
  import Text

  // ---------------------------------------------------------------------------
  // img_file_re = ^[0-9a-f]{10,40}\.(jpg|gif|png)$
  // ---------------------------------------------------------------------------

  predicate IsLowerHex(c: char) {
    '0' <= c <= '9' || 'a' <= c <= 'f'
  }

  predicate AllLowerHex(s: string) {
    forall k :: 0 <= k < |s| ==> IsLowerHex(s[k])
  }

  /** The alternatives of the pattern's final group. */
  const Extensions: set<string> := {"jpg", "gif", "png"}

  /** The language of the pattern: 10 to 40 lower-case hex digits, a dot, an extension, nothing more. */
  ghost predicate MatchesPattern(name: string) {
    exists m :: 10 <= m <= 40 && m < |name| && AllLowerHex(name[..m]) && name[m] == '.' && name[m + 1..] in Extensions
  }

  /** The length of the run of lower-case hex digits that starts `s`. */
  function HexRun(s: string): (n: nat)
    ensures n <= |s|
    ensures AllLowerHex(s[..n])
    ensures n < |s| ==> !IsLowerHex(s[n])
  {
    if s == [] || !IsLowerHex(s[0]) then 0
    else
      var n := 1 + HexRun(s[1..]);
      assert forall k :: 1 <= k < n ==> s[..n][k] == s[1..][..n - 1][k - 1];
      n
  }

  /**
   * `img_file_re.match(name)`. The digit run must end at the dot, which is not
   * a hex digit, so the greedy run is the only split worth trying.
   */
  predicate ImgFileMatch(name: string)
    ensures ImgFileMatch(name) ==>
              14 <= |name| <= 44 && name[|name| - 4] == '.' && AllLowerHex(name[..|name| - 4])
  {
    var n := HexRun(name);
    10 <= n <= 40 && n < |name| && name[n] == '.' && name[n + 1..] in Extensions
  }

  /** The run of hex digits in front of a non-digit is exactly the digits. */
  lemma {:induction false} HexRunStopsAt(digits: string, rest: string)
    requires AllLowerHex(digits)
    requires rest != [] && !IsLowerHex(rest[0])
    ensures HexRun(digits + rest) == |digits|
  {
    if digits != [] {
      assert (digits + rest)[1..] == digits[1..] + rest;
      HexRunStopsAt(digits[1..], rest);
    } else {
      assert digits + rest == rest;
    }
  }

  /** The matcher accepts exactly the language of the pattern. */
  lemma ImgFileMatchIsPattern(name: string)
    ensures ImgFileMatch(name) <==> MatchesPattern(name)
  {
    if MatchesPattern(name) {
      var m :| 10 <= m <= 40 && m < |name| && AllLowerHex(name[..m]) && name[m] == '.' && name[m + 1..] in Extensions;
      assert name == name[..m] + name[m..];
      HexRunStopsAt(name[..m], name[m..]);
    }
  }

  /** Every name made of 10 to 40 lower-case hex digits, a dot and an extension matches. */
  lemma ImgFileAccepts(digits: string, ext: string)
    requires 10 <= |digits| <= 40 && AllLowerHex(digits) && ext in Extensions
    ensures ImgFileMatch(digits + "." + ext)
  {
    var name := digits + "." + ext;
    assert name == digits + ("." + ext);
    HexRunStopsAt(digits, "." + ext);
    assert name[|digits| + 1..] == ext;
  }

  lemma AllLowerHexAppend(a: string, b: string)
    requires AllLowerHex(a) && AllLowerHex(b)
    ensures AllLowerHex(a + b)
  {
    assert forall k :: |a| <= k < |a + b| ==> (a + b)[k] == b[k - |a|];
  }

  lemma SixteenDigits()
    ensures AllLowerHex("0123456789abcdef")
  {
  }

  lemma TenDigits()
    ensures AllLowerHex("a0b1c2d3e4")
  {
  }

  lemma FortyDigits()
    ensures AllLowerHex("0123456789abcdef0123456789abcdef01234567")
  {
    var sixteen := "0123456789abcdef";
    var eight := "01234567";
    SixteenDigits();
    assert AllLowerHex(eight);
    AllLowerHexAppend(sixteen, sixteen);
    AllLowerHexAppend(sixteen + sixteen, eight);
    assert sixteen + sixteen + eight == "0123456789abcdef0123456789abcdef01234567";
  }

  lemma FortyEightDigits()
    ensures AllLowerHex("0123456789abcdef0123456789abcdef0123456789abcdef")
  {
    var sixteen := "0123456789abcdef";
    SixteenDigits();
    AllLowerHexAppend(sixteen, sixteen);
    AllLowerHexAppend(sixteen + sixteen, sixteen);
    assert sixteen + sixteen + sixteen == "0123456789abcdef0123456789abcdef0123456789abcdef";
  }

  /** The names of 10 digits LulzHistory/tests/test_utilities.py, lines 35, 37 and 39, expects to match. */
  lemma ShortNamesAccepted()
    ensures ImgFileMatch("a0b1c2d3e4.jpg")
    ensures ImgFileMatch("a0b1c2d3e4.gif")
    ensures ImgFileMatch("a0b1c2d3e4.png")
  {
    var short := "a0b1c2d3e4";
    TenDigits();
    ImgFileAccepts(short, "jpg");
    ImgFileAccepts(short, "gif");
    ImgFileAccepts(short, "png");
    assert short + "." + "jpg" == "a0b1c2d3e4.jpg";
    assert short + "." + "gif" == "a0b1c2d3e4.gif";
    assert short + "." + "png" == "a0b1c2d3e4.png";
  }

  /** The names of 40 digits LulzHistory/tests/test_utilities.py, lines 36, 38 and 40, expects to match. */
  lemma LongNamesAccepted()
    ensures ImgFileMatch("0123456789abcdef0123456789abcdef01234567.jpg")
    ensures ImgFileMatch("0123456789abcdef0123456789abcdef01234567.gif")
    ensures ImgFileMatch("0123456789abcdef0123456789abcdef01234567.png")
  {
    var long := "0123456789abcdef0123456789abcdef01234567";
    FortyDigits();
    ImgFileAccepts(long, "jpg");
    ImgFileAccepts(long, "gif");
    ImgFileAccepts(long, "png");
    assert long + "." + "jpg" == "0123456789abcdef0123456789abcdef01234567.jpg";
    assert long + "." + "gif" == "0123456789abcdef0123456789abcdef01234567.gif";
    assert long + "." + "png" == "0123456789abcdef0123456789abcdef01234567.png";
  }

  /** A name is rejected when its hex run is too short or too long, or is not followed by a dot and an extension. */
  lemma RejectedAfterRun(digits: string, rest: string)
    requires AllLowerHex(digits)
    requires rest != [] && !IsLowerHex(rest[0])
    requires |digits| < 10 || |digits| > 40 || rest[0] != '.' || rest[1..] !in Extensions
    ensures !ImgFileMatch(digits + rest)
  {
    HexRunStopsAt(digits, rest);
    var name := digits + rest;
    assert name[|digits|..] == rest;
  }

  /** Names of LulzHistory/tests/test_utilities.py, lines 43-47 and 52: too few digits, or a character outside the pattern. */
  lemma ForeignNamesRejected()
    ensures !ImgFileMatch("this-contains-invalid-characters.jpg")
    ensures !ImgFileMatch("a0123.jpg")
    ensures !ImgFileMatch("aaa.gif")
    ensures !ImgFileMatch("123.png")
    ensures !ImgFileMatch("a0-12-b3.jpg")
    ensures !ImgFileMatch("A0B1C2D3E4.jpg")
  {
    RejectedAfterRun("", "this-contains-invalid-characters.jpg");
    RejectedAfterRun("a0123", ".jpg");
    RejectedAfterRun("aaa", ".gif");
    RejectedAfterRun("123", ".png");
    RejectedAfterRun("a0", "-12-b3.jpg");
    RejectedAfterRun("", "A0B1C2D3E4.jpg");
  }

  /** A name made only of hex digits has no dot and is rejected. */
  lemma AllHexRejected(name: string)
    requires AllLowerHex(name)
    ensures !ImgFileMatch(name)
  {
  }

  /** LulzHistory/tests/test_utilities.py, line 48: digits without an extension. */
  lemma BareDigitsRejected()
    ensures !ImgFileMatch("0123456789abcdef")
  {
    SixteenDigits();
    AllHexRejected("0123456789abcdef");
  }

  /** LulzHistory/tests/test_utilities.py, line 49: a suffix after the extension. */
  lemma SuffixedNameRejected()
    ensures !ImgFileMatch("0123456789abcdef.jpg.exe")
  {
    var sixteen := "0123456789abcdef";
    SixteenDigits();
    var rest := ".jpg.exe";
    assert rest[1..] == "jpg.exe";
    RejectedAfterRun(sixteen, rest);
    assert sixteen + rest == "0123456789abcdef.jpg.exe";
  }

  /**
   * LulzHistory/tests/test_utilities.py, lines 50-51: a missing comma there glues the two
   * names into one, which starts with an underscore and is rejected.
   */
  lemma GluedNameRejected()
    ensures !ImgFileMatch("_abc123def456.jpg" + "0123456789abcdef0123456789abcdef0123456789abcdef.jpg")
  {
    var glued := "_abc123def456.jpg" + "0123456789abcdef0123456789abcdef0123456789abcdef.jpg";
    assert glued[0] == '_';
    RejectedAfterRun("", glued);
    assert "" + glued == glued;
  }

  /** The first of the two names glued together on lines 50-51, on its own: it starts with an underscore. */
  lemma UnderscoreNameRejected()
    ensures !ImgFileMatch("_abc123def456.jpg")
  {
    var name := "_abc123def456.jpg";
    assert name[0] == '_';
    RejectedAfterRun("", name);
    assert "" + name == name;
  }

  /** The 48-digit name of LulzHistory/tests/test_utilities.py, line 51, on its own: too many digits. */
  lemma LongNameRejected()
    ensures !ImgFileMatch("0123456789abcdef0123456789abcdef0123456789abcdef.jpg")
  {
    var fortyEight := "0123456789abcdef0123456789abcdef0123456789abcdef";
    FortyEightDigits();
    RejectedAfterRun(fortyEight, ".jpg");
    assert fortyEight + ".jpg" == "0123456789abcdef0123456789abcdef0123456789abcdef.jpg";
  }

  // ---------------------------------------------------------------------------
  // The sha a picture is named after: name.split('.', 1)[0]
  // ---------------------------------------------------------------------------

  /** The sha is the longest prefix of the name without a dot; the dot, if any, follows it. */
  function PicSha(name: string): (sha: string)
    ensures '.' !in sha && |sha| <= |name| && name[..|sha|] == sha
    ensures |sha| < |name| ==> name[|sha|] == '.'
  {
    Text.SplitFirstPiece(name, '.');
    Text.Split(name, '.')[0]
  }

  /** For a matching name the sha is its run of hex digits: 10 to 40 lower-case hex digits. */
  lemma ShaOfMatch(name: string)
    requires ImgFileMatch(name)
    ensures PicSha(name) == name[..HexRun(name)]
    ensures 10 <= |PicSha(name)| <= 40 && AllLowerHex(PicSha(name))
  {
    var n := HexRun(name);
    var digits := name[..n];
    var tail := name[n..];
    assert name == digits + tail;
    assert '.' !in digits;
    Text.SplitAfterFreePrefix(digits, tail, '.');
    assert tail[0] == '.';
    assert Text.Split(tail, '.')[0] == "";
    assert digits + "" == digits;
  }

  // ---------------------------------------------------------------------------
  // The repository tree as the contents API lists it
  // ---------------------------------------------------------------------------

  /** A directory entry: `type` 'dir' (with what listing it returns), 'file', or anything else. */
  datatype Node =
    | Dir(name: string, path: string, listing: Listing)
    | File(name: string, path: string)
    | Other(kind: string, name: string, path: string)

  /** A directory's listing, or the status of the `HTTPError` that requesting it raises. */
  datatype Listing = Listed(entries: seq<Node>) | Unavailable(status: int)

  /** The repository being scanned, and the branch its raw URLs point into. */
  datatype Repo = Repo(owner: string, name: string, branch: string)

  /** 'https://raw.github.com' followed by the slash of '{base}/{owner}/...'. */
  const RawBase := "https://raw.github.com/"

  /** '{base}/{owner}/{repo}/{branch}/{path}' with base 'https://raw.github.com'. */
  function RawUrl(repo: Repo, path: string): (u: string)
    ensures |u| >= |RawBase| + |path| && u[..|RawBase|] == RawBase && u[|u| - |path|..] == path
  {
    var u := RawBase + repo.owner + "/" + repo.name + "/" + repo.branch + "/" + path;
    assert u == RawBase + (repo.owner + "/" + repo.name + "/" + repo.branch + "/") + path;
    u
  }

  /** What the scan meets, in order: a matching picture, or a listing whose request raises. */
  datatype Event = Picture(sha: string, path: string) | Abort

  /** The events of scanning a listing, depth first, entries in listing order. */
  function WalkListing(l: Listing): (events: seq<Event>)
    ensures forall e :: e in events && e.Picture? ==> 10 <= |e.sha| <= 40 && AllLowerHex(e.sha)
    decreases l
  {
    match l
    case Unavailable(_) => [Abort]
    case Listed(entries) => WalkEntries(entries)
  }

  function WalkEntries(entries: seq<Node>): (events: seq<Event>)
    ensures forall e :: e in events && e.Picture? ==> 10 <= |e.sha| <= 40 && AllLowerHex(e.sha)
    decreases entries
  {
    if entries == [] then [] else WalkNode(entries[0]) + WalkEntries(entries[1..])
  }

  /** A 'dir' is scanned recursively, a matching 'file' is a picture, anything else is skipped. */
  function WalkNode(node: Node): (events: seq<Event>)
    ensures forall e :: e in events && e.Picture? ==> 10 <= |e.sha| <= 40 && AllLowerHex(e.sha)
    decreases node
  {
    match node
    case Dir(_, _, l) => WalkListing(l)
    case File(name, path) =>
      if ImgFileMatch(name) then
        ShaOfMatch(name);
        [Picture(PicSha(name), path)]
      else []
    case Other(_, _, _) => []
  }

  lemma {:induction false} WalkEntriesAppend(a: seq<Node>, b: seq<Node>)
    ensures WalkEntries(a + b) == WalkEntries(a) + WalkEntries(b)
  {
    if a == [] {
      assert a + b == b;
    } else {
      assert (a + b)[1..] == a[1..] + b;
      WalkEntriesAppend(a[1..], b);
    }
  }

  /** The dictionary `found` and whether the scan got through without an `HTTPError`. */
  datatype ScanState = ScanState(found: map<string, string>, completed: bool)

  /** `found[sha] = file_url` for each picture in turn, stopping at the first failed request. */
  function Apply(repo: Repo, found: map<string, string>, events: seq<Event>): (r: ScanState)
    ensures r.completed <==> Abort !in events
    ensures found.Keys <= r.found.Keys
    decreases events
  {
    if events == [] then ScanState(found, true)
    else
      assert events == [events[0]] + events[1..];
      match events[0]
      case Abort => ScanState(found, false)
      case Picture(sha, path) => Apply(repo, found[sha := RawUrl(repo, path)], events[1..])
  }

  lemma {:induction false} ApplyAppend(repo: Repo, found: map<string, string>, a: seq<Event>, b: seq<Event>)
    ensures var first := Apply(repo, found, a);
            Apply(repo, found, a + b) == if first.completed then Apply(repo, first.found, b) else first
    decreases a
  {
    if a == [] {
      assert a + b == b;
    } else {
      assert (a + b)[1..] == a[1..] + b;
      match a[0]
      case Abort =>
      case Picture(sha, path) =>
        ApplyAppend(repo, found[sha := RawUrl(repo, path)], a[1..], b);
    }
  }

  /** A failed request ends the scan with what was found before it. */
  lemma StopsAtAbort(repo: Repo, found: map<string, string>, a: seq<Event>, b: seq<Event>)
    requires Abort !in a
    ensures Apply(repo, found, a + [Abort] + b) == ScanState(Apply(repo, found, a).found, false)
  {
    ApplyAppend(repo, found, a, [Abort] + b);
    assert a + [Abort] + b == a + ([Abort] + b);
  }

  /** Every key the scan adds is the sha of a picture it met, mapped to the raw URL of such a picture. */
  lemma {:induction false} ApplyKeysComeFromPictures(repo: Repo, found: map<string, string>, events: seq<Event>)
    ensures var r := Apply(repo, found, events).found;
            forall k :: k in r ==>
              (k in found && r[k] == found[k]) || exists path :: Picture(k, path) in events && r[k] == RawUrl(repo, path)
    decreases events
  {
    if events != [] {
      match events[0]
      case Abort =>
      case Picture(sha, path) =>
        var next := found[sha := RawUrl(repo, path)];
        ApplyKeysComeFromPictures(repo, next, events[1..]);
        var r := Apply(repo, found, events).found;
        forall k | k in r
          ensures (k in found && r[k] == found[k]) || exists p :: Picture(k, p) in events && r[k] == RawUrl(repo, p)
        {
          if k == sha && !(exists p :: Picture(k, p) in events[1..] && r[k] == RawUrl(repo, p)) {
            assert r[k] == RawUrl(repo, path);
            assert Picture(k, path) == events[0];
          } else if k != sha && k in found && r[k] == found[k] {
          } else {
            var p :| Picture(k, p) in events[1..] && r[k] == RawUrl(repo, p);
            assert Picture(k, p) in events;
          }
        }
    }
  }

  /** Pictures met after the last one for `sha` leave its entry alone. */
  lemma {:induction false} ApplyKeepsUntouchedKey(repo: Repo, found: map<string, string>, events: seq<Event>, sha: string)
    requires sha in found
    requires forall e :: e in events ==> !(e.Picture? && e.sha == sha)
    ensures sha in Apply(repo, found, events).found && Apply(repo, found, events).found[sha] == found[sha]
    decreases events
  {
    if events != [] {
      assert events[0] in events;
      match events[0]
      case Abort =>
      case Picture(s, path) =>
        assert forall e :: e in events[1..] ==> e in events;
        ApplyKeepsUntouchedKey(repo, found[s := RawUrl(repo, path)], events[1..], sha);
    }
  }

  /** A later picture with the same sha overwrites an earlier one: the last one met wins. */
  lemma LastPictureWins(repo: Repo, found: map<string, string>, a: seq<Event>, sha: string, path: string, b: seq<Event>)
    requires Abort !in a
    requires forall e :: e in b ==> !(e.Picture? && e.sha == sha)
    ensures var r := Apply(repo, found, a + [Picture(sha, path)] + b).found;
            sha in r && r[sha] == RawUrl(repo, path)
  {
    var mid := Apply(repo, found, a).found;
    ApplyAppend(repo, found, a, [Picture(sha, path)] + b);
    assert a + [Picture(sha, path)] + b == a + ([Picture(sha, path)] + b);
    assert ([Picture(sha, path)] + b)[1..] == b;
    ApplyKeepsUntouchedKey(repo, mid[sha := RawUrl(repo, path)], b, sha);
  }

  /** A scan that completes records every picture it met. */
  lemma {:induction false} CompletedScanHasEveryPicture(repo: Repo, found: map<string, string>, events: seq<Event>)
    requires Abort !in events
    ensures forall e :: e in events && e.Picture? ==> e.sha in Apply(repo, found, events).found
    decreases events
  {
    if events != [] {
      match events[0]
      case Abort =>
      case Picture(sha, path) =>
        var next := found[sha := RawUrl(repo, path)];
        assert Abort !in events[1..];
        CompletedScanHasEveryPicture(repo, next, events[1..]);
        assert events == [events[0]] + events[1..];
    }
  }

  // ---------------------------------------------------------------------------
  // get_repo_pics and scan_subtree, updating `found` in place
  // ---------------------------------------------------------------------------

  /** `get_repo_default_branch`: always 'master' (views.py, lines 155-157). */
  function DefaultBranch(owner: string, repo: string): (branch: string)
    ensures branch == "master"
  {
    "master"
  }

  /** The closure state of one `get_repo_pics` call: the repository and the dictionary `found`. */
  class PicScanner {
    const repo: Repo
    var found: map<string, string>

    constructor (repo: Repo)
      ensures this.repo == repo && found == map[]
    {
      this.repo := repo;
      found := map[];
    }

    /** `scan_subtree(url)` on the listing its request returns; `false` when an `HTTPError` propagates out. */
    method ScanSubtree(listing: Listing) returns (completed: bool)
      modifies this
      ensures ScanState(found, completed) == Apply(repo, old(found), WalkListing(listing))
      decreases listing
    {
      match listing {
        case Unavailable(_) =>
          return false;
        case Listed(entries) =>
          var i := 0;
          while i < |entries|
            invariant 0 <= i <= |entries|
            invariant Apply(repo, old(found), WalkEntries(entries[..i])) == ScanState(found, true)
          {
            ghost var before := found;
            var node := entries[i];
            assert node in entries;
            assert entries[..i + 1] == entries[..i] + [node];
            WalkEntriesAppend(entries[..i], [node]);
            assert WalkEntries([node]) == WalkNode(node) by {
              assert [node][1..] == [];
            }
            ApplyAppend(repo, old(found), WalkEntries(entries[..i]), WalkNode(node));
            match node {
              case Dir(_, _, sub) =>
                var ok := ScanSubtree(sub);
                if !ok {
                  ApplyAppend(repo, old(found), WalkEntries(entries[..i + 1]), WalkEntries(entries[i + 1..]));
                  assert entries == entries[..i + 1] + entries[i + 1..];
                  WalkEntriesAppend(entries[..i + 1], entries[i + 1..]);
                  return false;
                }
              case File(name, path) =>
                if ImgFileMatch(name) {
                  found := found[PicSha(name) := RawUrl(repo, path)];
                }
                assert Apply(repo, before, WalkNode(node)) == ScanState(found, true);
              case Other(_, _, _) =>
            }
            i := i + 1;
          }
          assert entries[..i] == entries;
          return true;
      }
    }
  }

  /**
   * `get_repo_pics(owner, repo)` over the tree the contents API returns: the
   * pictures found before the first failed request, or all of them.
   */
  method GetRepoPics(owner: string, name: string, root: Listing) returns (found: map<string, string>)
    ensures found == Apply(Repo(owner, name, DefaultBranch(owner, name)), map[], WalkListing(root)).found
  {
    var scanner := new PicScanner(Repo(owner, name, DefaultBranch(owner, name)));
    var completed := scanner.ScanSubtree(root);
    // An HTTPError is swallowed: the pictures found so far are returned.
    found := scanner.found;
  }

  /** Every key `get_repo_pics` returns is a valid sha, mapped to a raw URL in the default branch. */
  lemma RepoPicsAreShasToRawUrls(owner: string, name: string, root: Listing)
    ensures var repo := Repo(owner, name, "master");
            var r := Apply(repo, map[], WalkListing(root)).found;
            forall k :: k in r ==>
              10 <= |k| <= 40 && AllLowerHex(k) && exists path :: r[k] == RawUrl(repo, path)
  {
    var repo := Repo(owner, name, "master");
    ApplyKeysComeFromPictures(repo, map[], WalkListing(root));
  }

  /** A scan whose first request fails finds nothing: `get_repo_pics` returns an empty dictionary. */
  lemma FailedRootFindsNothing(owner: string, name: string, status: int)
    ensures Apply(Repo(owner, name, DefaultBranch(owner, name)), map[], WalkListing(Unavailable(status))).found == map[]
  {
    assert WalkListing(Unavailable(status)) == [Abort];
  }
}

=== FILE: text.dfy ===
/**
 * Python's `str.split(sep)` for a one-character separator, as views.py uses it
 * (`name.split('.', 1)[0]` for a picture's sha, `repo.split('/')` in `goto`),
 * with `sep.join(parts)` as its inverse.
 */
module Text {

  /** `s.split(sep)`: the pieces between separators, empty pieces included; never an empty list. */
  function Split(s: string, sep: char): (parts: seq<string>)
    ensures |parts| >= 1
    decreases |s|
  {
    if s == [] then [""]
    else
      var rest := Split(s[1..], sep);
      if s[0] == sep then [""] + rest else [[s[0]] + rest[0]] + rest[1..]
  }

  /** `sep.join(parts)`. */
  function Join(parts: seq<string>, sep: char): string {
    if parts == [] then ""
    else if |parts| == 1 then parts[0]
    else parts[0] + [sep] + Join(parts[1..], sep)
  }

  /** The number of occurrences of `c` in `s`. */
  function Count(s: string, c: char): nat {
    if s == [] then 0 else (if s[0] == c then 1 else 0) + Count(s[1..], c)
  }

  /** Joining the pieces with the separator gives back the string. */
  lemma {:induction false} JoinSplit(s: string, sep: char)
    ensures Join(Split(s, sep), sep) == s
    decreases |s|
  {
    if s != [] {
      var rest := Split(s[1..], sep);
      JoinSplit(s[1..], sep);
      if s[0] == sep {
        assert Split(s, sep)[1..] == rest;
        assert s == [sep] + s[1..];
      } else {
        var parts := Split(s, sep);
        assert parts[0] == [s[0]] + rest[0];
        if |rest| == 1 {
          assert s == [s[0]] + rest[0];
        } else {
          assert parts[1..] == rest[1..];
          assert Join(rest, sep) == rest[0] + [sep] + Join(rest[1..], sep);
          assert s == [s[0]] + s[1..];
        }
      }
    }
  }

  /** No piece contains the separator. */
  lemma {:induction false} SplitPiecesAreFree(s: string, sep: char)
    ensures forall k :: 0 <= k < |Split(s, sep)| ==> sep !in Split(s, sep)[k]
    decreases |s|
  {
    if s != [] {
      SplitPiecesAreFree(s[1..], sep);
      var rest := Split(s[1..], sep);
      var parts := Split(s, sep);
      if s[0] == sep {
        assert forall k :: 1 <= k < |parts| ==> parts[k] == rest[k - 1];
      } else {
        assert forall k :: 1 <= k < |parts| ==> parts[k] == rest[k];
        assert sep !in rest[0];
      }
    }
  }

  /** The first piece is the longest prefix of the string without the separator. */
  lemma {:induction false} SplitFirstPiece(s: string, sep: char)
    ensures var first := Split(s, sep)[0];
            sep !in first && |first| <= |s| && s[..|first|] == first && (|first| < |s| ==> s[|first|] == sep)
    decreases |s|
  {
    if s != [] && s[0] != sep {
      var rest := Split(s[1..], sep);
      SplitFirstPiece(s[1..], sep);
      assert Split(s, sep)[0] == [s[0]] + rest[0];
      assert s[..1 + |rest[0]|] == [s[0]] + s[1..][..|rest[0]|];
    }
  }

  /** There is one more piece than there are separators. */
  lemma {:induction false} SplitCount(s: string, sep: char)
    ensures |Split(s, sep)| == Count(s, sep) + 1
    decreases |s|
  {
    if s != [] {
      SplitCount(s[1..], sep);
    }
  }

  /** A string without the separator splits into itself. */
  lemma {:induction false} SplitWithoutSeparator(s: string, sep: char)
    requires sep !in s
    ensures Split(s, sep) == [s]
    decreases |s|
  {
    if s != [] {
      assert sep !in s[1..];
      SplitWithoutSeparator(s[1..], sep);
      assert s == [s[0]] + s[1..];
    }
  }

  /** A separator-free prefix is glued onto the first piece of what follows it. */
  lemma {:induction false} SplitAfterFreePrefix(a: string, t: string, sep: char)
    requires sep !in a
    ensures Split(a + t, sep) == [a + Split(t, sep)[0]] + Split(t, sep)[1..]
    decreases |a|
  {
    if a != [] {
      assert (a + t)[1..] == a[1..] + t;
      assert (a + t)[0] == a[0];
      assert sep !in a[1..];
      SplitAfterFreePrefix(a[1..], t, sep);
      assert [a[0]] + (a[1..] + Split(t, sep)[0]) == a + Split(t, sep)[0];
    } else {
      var parts := Split(t, sep);
      assert a + t == t;
      assert a + parts[0] == parts[0];
      assert parts == [parts[0]] + parts[1..];
    }
  }

  /** Splitting the join of separator-free pieces gives back the pieces. */
  lemma {:induction false} SplitJoin(parts: seq<string>, sep: char)
    requires |parts| >= 1
    requires forall k :: 0 <= k < |parts| ==> sep !in parts[k]
    ensures Split(Join(parts, sep), sep) == parts
  {
    if |parts| == 1 {
      SplitWithoutSeparator(parts[0], sep);
    } else {
      var tail := Join(parts[1..], sep);
      SplitJoin(parts[1..], sep);
      assert Split([sep] + tail, sep) == [""] + parts[1..] by {
        assert ([sep] + tail)[1..] == tail;
      }
      assert parts[0] + [sep] + tail == parts[0] + ([sep] + tail);
      SplitAfterFreePrefix(parts[0], [sep] + tail, sep);
      assert parts[0] + "" == parts[0];
      assert parts == [parts[0]] + parts[1..];
    }
  }
}

=== FILE: wrappers.dfy ===
/** Option and Result: Python's `None` and Python's raised exceptions, made explicit. */
module Wrappers {

  datatype Option<+T> = None | Some(value: T)

  /** The outcome of a Python call that either returns `value` or raises `error`. */
  datatype Result<+R, +E> = Success(value: R) | Failure(error: E)
}
